=== FILE: README.md ===
# Gift registry: funding and visibility core

A model of the funding and visibility rules of a NestJS/TypeORM gift-registry
backend. Users publish wishes with a target price. Other users contribute
offers towards a wish, and an offer may be hidden. Wishes can be copied, and
wishlists gather wishes by reference.

The model covers these parts:

- **The contribution ledger** (`OffersService.CreateForUser`). It makes three checks in a fixed order: the wish exists, the contributor is not the owner, and `raised + amount <= price`. Only then does it write one offer and advance `raised`.
- **The wish lifecycle** (`WishesService`):
  - create;
  - update with existence, ownership and price-lock checks;
  - remove;
  - copy;
  - the bounded "last" and "top" listings.
- **Wishlist aggregation** (`WishlistsService`). Client ids are resolved against the stored wishes, and unknown ids are dropped. A supplied id list replaces the membership.
- **The response renderers of the four controllers**:
  - passwords are never rendered, and e-mails only where the users controller asks for them;
  - money is rendered as numbers;
  - hidden offers are redacted by the offers controller, and only by it.

The database is one immutable value, `Stores.Store`:

- users, wishes and wishlists are maps keyed by id;
- offers are an append-only ledger, because this core only ever inserts them;
- one id generator and one creation clock.

Every operation is a pure function (or a method, where it loops) from a store to a `Result` of a new store. The error taxonomy is `NotFound | Forbidden | BadRequest(reason)`.

Money is kept as integer cents. A `decimal(10, 2)` column holds fewer than 10^10 cents, and the smallest price is one cent.

The optional fields of `PATCH /wishes/:id`, and `itemsId` of `PATCH /wishlistlists/:id`, are `Results.Field` values: `Absent`, `JsonNull` or `Given(v)`. `@IsOptional()` lets an explicit `null` through validation, and the services test `!== undefined`, so `null` is not the same as a missing key. The wish columns are all NOT NULL (`wish.entity.ts:21-49` declares none nullable). An update that reaches the write with a `null` therefore fails with `StorageFailure`, the database's refusal.

`Stores.Valid` is the database invariant. It says:

- keys match ids;
- no two offers share an id;
- every wish, offer and wishlist id lies below the generator (user ids are not bounded);
- each wish has `0 <= raised <= price` and its column bounds;
- `raised` equals the sum of the wish's offers.

The ledger, the price lock, copy, remove and the wishlist writes are each proved to preserve it.

Relation loading is explicit. `Views.Load*` builds the object graph a query with `relations: [...]` would return. Each controller's `Sanitize*` turns that graph into a response body. The response types have no password field.

A JavaScript id is `Views.JsId`, one of `Num(n)`, `Null` or `Undefined`, so `!==` compares exactly as JavaScript does. This brings out the following quirks:

- A viewer `undefined` never equals a missing contributor or owner, which fall back to `null`. This is a property of `sanitizeOffer` only: every offers route sits behind the JWT guard (`offers.controller.ts:69`, `:79`, `:88`), and the strategy rejects a token whose user row is missing (`jwt.strategy.ts:26-28`), so no request reaches the renderer without a user.
- Only `offers.controller.ts` redacts hidden offers. `wishes.controller.ts:36-46` renders every offer of a wish with its amount and contributor, and `users.controller.ts:47-55` does the same for a user's wishes. Lemmas `WishesController.HiddenOfferShownOnWish` and `UsersController.HiddenOfferShownOnUserWishes` state this leak, and the model reproduces it rather than repairing it.
- `createForUser` always hands the notification payload to the mail service. Both addresses are optional there (`offers.service.ts:61`, `:93-94`). The mail service then skips the payload, with only a warning, when either address is missing or empty (`mail.service.ts:20-25`). The model returns the payload with both addresses as an `Option`, and `OffersService.Delivered` states the skip.

## Model

| member | source | states |
|---|---|---|
| Entities.FreshWish | backend/src/wishes/entities/wish.entity.ts:21-49 | A new row takes the defaults `raised = 0` and `copied = 0` and the caller's columns; inputs within the column bounds and at least one cent give a row satisfying `WishShape` |
| Stores.OffersOf | backend/src/wishes/entities/wish.entity.ts:45-46 | The `offers` relation of a wish holds exactly the ledger's offers that point at the wish |
| Stores.ContributedAppend | backend/src/offers/offers.service.ts:87-89 | Inserting an offer raises the ledger total of its own wish by its amount and of no other wish |
| Stores.UnreferencedHasNoOffers | backend/src/wishes/entities/wish.entity.ts:35-36 | A wish no offer refers to has an empty `offers` relation and a ledger total of 0 |
| Stores.UnfundedWishRaisedNothing | backend/src/wishes/wishes.service.ts:86-89 | In a valid store a wish without offers has `raised == 0` |
| Stores.FundKeepsValid | backend/src/offers/offers.service.ts:77-89 | Recording an offer that fits under the price keeps `0 <= raised <= price` and `raised == sum of offers` for every wish |
| Stores.FundKeepsOffersKeyed | backend/src/offers/offers.service.ts:87 | The offer id taken from the generator is new, so offer primary keys stay unique |
| Stores.InsertWishKeepsValid | backend/src/wishes/wishes.service.ts:56-65 | Inserting an unfunded, well-formed wish under a fresh id keeps the store valid |
| Stores.ReplaceWishKeepsValid | backend/src/wishes/wishes.service.ts:96 | Rewriting a wish's columns without touching `raised` keeps the store valid |
| Views.ViewerOf | backend/src/offers/offers.controller.ts:76 | The viewer `req.user?.id` is `undefined` exactly when there is no user, and otherwise the user's id |
| Views.IdOrNull | backend/src/offers/offers.controller.ts:53-54 | `x?.id ?? null` is never `undefined`, and is `null` exactly when the relation is missing |
| Views.SanitizeUser | backend/src/users/users.controller.ts:28-35 | An absent user stays absent; the identity and profile are copied; the e-mail is present if and only if `exposeEmail`; there is no password field |
| Views.RenderWish | backend/src/wishes/wishes.controller.ts:48-57 | Every wish renderer copies the wish's columns and numeric money fields and gives an owner without e-mail |
| Views.LoadWish | backend/src/wishes/wishes.controller.ts:95-98 | Loading `owner, offers, offers.user` yields every offer of the wish, each with its contributor (listed in ledger order, where the query itself fixes none) |
| Views.LoadItems | backend/src/wishlists/wishlists.controller.ts:76-79 | The loaded items of a wishlist are exactly the stored wishes it names; a named id without a row contributes nothing |
| OffersService.CreateForUser | backend/src/offers/offers.service.ts:59-103 | NotFound iff the wish is missing; BadRequest(OwnWish) iff the caller owns it; BadRequest(ExceedsRemaining) iff `raised + amount > price` (the bound is inclusive); on success exactly one offer is appended with the request's amount, `hidden` false unless sent true, the caller and the wish; only that wish's `raised` advances by the amount; the notice names the wish, the owner's stored address, the caller's optional address and the amount |
| OffersService.NotificationDeliveredIff | backend/src/mail/mail.service.ts:15-25 | A successful contribution's notice goes out exactly when the owner row exists with a non-empty address and the contributor has a non-empty address |
| OffersService.ContributionKeepsLedger | backend/src/offers/offers.service.ts:74-89 | A successful contribution keeps the store valid, and the wish's ledger total becomes the old `raised` plus the amount |
| WishesService.CreateForOwner | backend/src/wishes/wishes.service.ts:56-65 | The new wish gets the next id, the requester as owner, the sent columns, `raised = 0` and `copied = 0`, and satisfies the column bounds |
| WishesService.UpdateWithChecks | backend/src/wishes/wishes.service.ts:74-101 | NotFound, then Forbidden, then BadRequest(PriceLocked) when a sent price (`null` counting as 0) differs from the price of a wish with offers, then StorageFailure when any field is `null`, each as an if-and-only-if; on success only that row changes, each given field takes its value, and every other field keeps its own, including `raised` and `copied` |
| WishesService.NullPriceNeverWritten | backend/src/wishes/wishes.service.ts:85-96 | A `null` price from the owner is refused by the price lock on a wish with offers and by the database on any other; it is never written |
| WishesService.UpdateKeepsValid | backend/src/wishes/wishes.service.ts:86-96 | The ledger guard and the price lock together keep `raised <= price` across an update |
| WishesService.RemoveWithChecks | backend/src/wishes/wishes.service.ts:103-114 | NotFound then Forbidden as if-and-only-ifs; on success the wish is gone, every other wish is unchanged, and the row as it was before deletion is returned |
| WishesService.RemoveKeepsValid | backend/src/wishes/wishes.service.ts:103-114 | Removing a wish keeps the store valid |
| WishesService.CopyWish | backend/src/wishes/wishes.service.ts:132-157 | NotFound iff the source is missing, with no owner check; on success the source's `copied` goes up by one and a new unfunded wish owned by the requester carries the source's name, link, image, price and description |
| WishesService.CopyKeepsValid | backend/src/wishes/wishes.service.ts:132-157 | In a valid store a copy always succeeds under an id not used before; the source is bumped by exactly one, the copy has no offers, and the store stays valid |
| WishesService.Rows | backend/src/wishes/wishes.service.ts:35-37 | The rows of a table: one per key, each a stored row; a table whose rows sit under their own ids yields no id twice |
| WishesService.TopBy | backend/src/wishes/wishes.service.ts:116-130 | `ORDER BY … DESC LIMIT n`: `min(n, |rows|)` rows drawn from the input as a sub-multiset, with distinct ids when the input has them, sorted descending, and no row left out is larger than a row taken |
| WishesService.SelectKeepsDistinct | backend/src/wishes/wishes.service.ts:116-130 | Taking the next row of a listing never repeats a row's id |
| WishesService.Listing | backend/src/wishes/wishes.service.ts:116-130 | `min(limit, |wishes|)` stored wishes, no id twice in a keyed table, sorted descending, dominating every wish left out |
| WishesService.FindLast | backend/src/wishes/wishes.service.ts:116-122 | `min(limit, |wishes|)` stored wishes, `limit` defaulting to 40, no id twice in a keyed table, newest first, none left out newer than one taken |
| WishesService.FindTop | backend/src/wishes/wishes.service.ts:124-130 | `min(limit, |wishes|)` stored wishes, `limit` defaulting to 20, no id twice in a keyed table, most copied first, none left out copied more than one taken |
| WishlistsService.Resolve | backend/src/wishlists/wishlists.service.ts:63 | `id IN (...)`: without repetitions, exactly the ids of the list that name a stored wish |
| WishlistsService.ResolveItems | backend/src/wishlists/wishlists.service.ts:59-64 | A missing, `null` or empty list resolves to no items; otherwise exactly the stored wishes the list names |
| WishlistsService.CreateForOwner | backend/src/wishlists/wishlists.service.ts:66-78 | The new wishlist gets the next id, the requester as owner, the sent fields (description defaulting to empty), and as items exactly the stored wishes among `itemsId` |
| WishlistsService.UpdateWithChecks | backend/src/wishlists/wishlists.service.ts:80-111 | NotFound then Forbidden as if-and-only-ifs; only that row changes; a sent id list, even an empty one, replaces the membership, and a `null` one empties it; without one the membership stays and the supplied fields are written; without fields the scalar columns stay |
| WishlistsService.RemoveWithChecks | backend/src/wishlists/wishlists.service.ts:113-127 | NotFound then Forbidden as if-and-only-ifs; on success only the wishlist row goes, wishes are untouched, and the snapshot is returned |
| WishlistsService.ListWritesKeepValid | backend/src/wishlists/wishlists.service.ts:66-127 | Creating, updating and removing wishlists keep the store valid |
| OffersController.SanitizeWish | backend/src/offers/offers.controller.ts:33-46 | An absent item stays absent; otherwise its id, numeric price and raised, and an owner without e-mail; no offers key |
| OffersController.SanitizeOffer | backend/src/offers/offers.controller.ts:48-63 | A hidden offer shown to a viewer who is neither contributor nor owner has null amount and user; otherwise amount and contributor are shown; a shown contributor has no e-mail; the item is always rendered |
| OffersController.SanitizeOffers | backend/src/offers/offers.controller.ts:65-67 | Pointwise with one viewer: same length and order |
| OffersController.FindOne | backend/src/offers/offers.controller.ts:88-99 | NotFound iff no offer has the id; otherwise a stored offer with that id, loaded with its relations and redacted for the viewer |
| OffersController.FindAll | backend/src/offers/offers.controller.ts:79-86 | One rendering per stored offer, each the stored offer loaded with its relations and redacted for the viewer |
| OffersController.FindOneAgreesWithFindAll | backend/src/offers/offers.controller.ts:79-99 | With unique primary keys, looking up a stored offer by id renders exactly what the full listing shows for it |
| OffersController.Create | backend/src/offers/offers.controller.ts:69-77 | Fails exactly as the ledger does; otherwise the body is the new offer, re-read with its contributor, wish and wish owner, redacted for the caller; its item is the wish with `raised` advanced by the amount |
| OffersController.StoredOfferVisibility | backend/src/offers/offers.controller.ts:52-60 | With both parties stored, a viewer sees a stored offer's amount iff it is not hidden or the viewer is its contributor or its wish's owner, and the amount and contributor are shown or withheld together |
| OffersController.AbsentViewerSeesNoHiddenOffer | backend/src/offers/offers.controller.ts:53-56 | An `undefined` viewer never matches the `null`-defaulted parties, so `sanitizeOffer` withholds every hidden offer from it; the guarded routes never pass such a viewer |
| OffersController.ContributorSeesOwnOffer | backend/src/offers/offers.controller.ts:71-77 | The response to a successful contribution shows the contributor their amount and their own public profile, even when hidden |
| WishesController.SanitizeOffer | backend/src/wishes/wishes.controller.ts:36-46 | Amount and contributor are always shown, whatever `hidden` says; the contributor has no e-mail |
| WishesController.SanitizeWish | backend/src/wishes/wishes.controller.ts:48-60 | Numeric money fields and a public owner; every loaded offer is rendered in order, and unloaded offers become `[]` |
| WishesController.SanitizeWishes | backend/src/wishes/wishes.controller.ts:62-64 | Pointwise: same length and order |
| WishesController.FindOne | backend/src/wishes/wishes.controller.ts:92-103 | NotFound iff the wish is missing; otherwise its price, raised and one rendering per offer of the wish |
| WishesController.EveryOfferShownOnWish | backend/src/wishes/wishes.controller.ts:36-46 | Every stored offer of a wish appears in the wish's rendering with its amount and contributor |
| WishesController.HiddenOfferShownOnWish | backend/src/wishes/wishes.controller.ts:36-58 | A hidden offer withheld by `GET /offers` from a third party is shown with its amount by `GET /wishes/:id` |
| WishlistsController.SanitizeWish | backend/src/wishlists/wishlists.controller.ts:36-48 | Numeric money fields, an owner without e-mail, and no offers key at all |
| WishlistsController.SanitizeWishlist | backend/src/wishlists/wishlists.controller.ts:50-60 | An absent wishlist stays absent; the columns are copied, the owner is public, and every loaded item is rendered in order, with missing items becoming `[]` |
| WishlistsController.SanitizeWishlists | backend/src/wishlists/wishlists.controller.ts:62-64 | Pointwise: same length and order |
| WishlistsController.FindOne | backend/src/wishlists/wishlists.controller.ts:74-84 | NotFound iff the wishlist is missing; otherwise no rendered item carries offers |
| WishlistsController.RenderedItemsAreStoredMembers | backend/src/wishlists/wishlists.controller.ts:74-84 | The rendered items are exactly the stored wishes the list names, with their stored price and raised |
| UsersController.SanitizeWish | backend/src/users/users.controller.ts:37-57 | Numeric money fields, an owner without e-mail, and every loaded offer with its amount and a contributor without e-mail, hidden or not |
| UsersController.SameRenderingAsWishes | backend/src/users/users.controller.ts:37-57 | This controller renders a wish exactly as the wishes controller does |
| UsersController.SanitizeWishes | backend/src/users/users.controller.ts:59-61 | Pointwise: same length and order, and the very list the wishes controller renders for the same wishes |
| UsersController.FindOwn | backend/src/users/users.controller.ts:63-73 | NotFound iff the caller's row is missing; otherwise the caller's profile with e-mail |
| UsersController.UpdateOwnResponse | backend/src/users/users.controller.ts:75-86 | NotFound iff the re-read row is missing; otherwise exactly the re-read row's profile with e-mail |
| UsersController.FindPublic | backend/src/users/users.controller.ts:98-106 | NotFound iff no user has the username; otherwise exactly the public profile, without e-mail, of a stored user with that username |
| UsersController.FindManyResponse | backend/src/users/users.controller.ts:122-129 | Every search result is rendered, in order, as exactly its profile with e-mail |
| UsersController.OwnedWishes | backend/src/users/users.controller.ts:88-96 | Exactly the renderings of the wishes the user owns, one per owned row, so none is listed twice |
| UsersController.OwnedRows | backend/src/users/users.controller.ts:91-94 | The rows of `findMany({ where: { owner: { id } } })` are exactly the wishes of that owner |
| UsersController.RenderedRows | backend/src/users/users.controller.ts:88-96 | Rendering one view per row of an owner's wishes yields exactly the renderings of that owner's wishes |
| UsersController.FindPublicWishes | backend/src/users/users.controller.ts:108-120 | NotFound iff no user has the username; otherwise every wish of such a user, once each, and only wishes of a user with that name |
| UsersController.HiddenOfferShownOnUserWishes | backend/src/users/users.controller.ts:47-55 | Every offer of a wish, hidden or not, is listed with its amount in the rendering of a user's wishes |
| Scenarios.InclusiveFundingBound | backend/src/offers/offers.service.ts:77 | With price 100.00: 60.00 is accepted, 41.00 more is refused, and 40.00 fills the wish to exactly 100.00 |
| Scenarios.NoContributionToOwnWish | backend/src/offers/offers.service.ts:70-72 | An owner's contribution is refused for every amount |
| Scenarios.NullItemsIdEmptiesList | backend/src/wishlists/wishlists.service.ts:102-107 | An update without `itemsId` keeps a wishlist's member; one with `"itemsId": null` empties it |
| Scenarios.UnknownIdDropped | backend/src/wishlists/wishlists.service.ts:63 | Ids `[5, 999]` with no wish 999 give a wishlist holding wish 5 alone |
| Scenarios.RemovalChecksOwnership | backend/src/wishes/wishes.service.ts:103-114 | A non-owner's removal is Forbidden, a missing id is NotFound, and the owner's removal returns the row |
| Scenarios.HiddenOfferViewers | backend/src/offers/offers.controller.ts:53-60 | A hidden offer is withheld from a third user and from an `undefined` viewer, and shown to its contributor and to the owner |
| Scenarios.NullViewerMatchesMissingParties | backend/src/offers/offers.controller.ts:53-56 | A `null` viewer matches a hidden offer whose contributor and owner rows are both missing |

## Left out

- Floating-point money: `Number(...)` arithmetic on decimal strings is modelled as exact integer cents, so rounding in `raised + amount > price` is not modelled.
- Concurrency and transactions: each call is atomic and sequential. Races between the two writes of `createForUser` or of `copyWish` are not modelled.
- Mail delivery: the logging and sending in `mail.service.ts` are not modelled. The notification is returned as a value, and only the service's skip condition is stated (`OffersService.Delivered`).
- Authentication: `auth.service.ts`, `jwt.strategy.ts` and `auth.controller.ts` are not part of this model. The authenticated principal is a parameter.
- `users.service.ts`: password hashing and the `ILike` search run on the database side. `POST find` and `PATCH me` are modelled from the rows they return.
- Generated ids and timestamps: both are abstract. One counter issues every id and one clock stamps `createdAt`.
- Validation decorators: they appear as `requires` clauses (`WellFormed*`), not as error paths. `@IsUrl` on images is not modelled.
- Wish upper price bound: the `decimal(10, 2)` limit is a `requires` on create and update; a database overflow error is not modelled.
- `In(...)` order: the database returns matched wishes in no specified order. The model keeps the order of first occurrence in the request.
- WishlistsService.UpdateWithChecks: a `null` name, description or image cannot be expressed; only `itemsId` distinguishes `null` from a missing key. `updateOne` would write such a `null` into the row. The wishlist entity file is not part of this model, so whether those columns accept NULL is not known here.
- WishlistsService.UpdateWithChecks: no property is stated when fields and `itemsId` are both supplied. The outcome then depends on how TypeORM's `save` writes back the object loaded before the first write. The model has the loaded columns written back.
- Empty updates: TypeORM's error on an update with no columns is not modelled. An empty wish update succeeds and changes nothing.
- Missing owner rows: `wish.owner.id` on a row whose owner was deleted would throw. The model assumes every wish and wishlist has an owner id.
- Cascades: foreign-key behaviour when a wish with offers or wishlist memberships is deleted is not modelled.
- Other controller endpoints: the create, update, remove and copy endpoints of the wishes and wishlists controllers, `GET /wishlistlists` (`wishlists.controller.ts:66-72`), and `GET /wishes/last` and `/top`, are not separate members. The service operation and the renderer are modelled; the relations each endpoint loads are not. These render a graph that no `Views.Load*` builds:
  - `DELETE /wishes/:id` returns the row read with `owner, offers` (`wishes.service.ts:67-72`, `:103-114`), so each rendered offer has no contributor.
  - `PATCH /wishlistlists/:id` re-reads with `owner, items` (`wishlists.service.ts:110`), so the rendered items have no owner.
  - `DELETE /wishlistlists/:id` returns the row read with `owner` only (`wishlists.service.ts:113-127`), so its body always has `items: []` (`wishlists.controller.ts:58`).
  - `POST /wishes` and `POST /wishes/:id/copy` re-read with `owner` only (`wishes.controller.ts:73-76`, `wishes.service.ts:153-156`), so their bodies have `offers: []`.
- Query order: `findOwnWishes` and `findPublicWishes` return rows in an unspecified order, and the model states membership only. `GET /offers` and the `offers` relation loaded by `GET /wishes/:id` also have no `ORDER BY`. The model lists them in ledger order, and no property depends on that order.
- Other entity files: the offer, user and wishlist entity files are not part of this model. Their rows are the datatypes in `Entities`.

=== FILE: entities.dfy ===
/** The persisted records of the gift registry: users, wishes, offers and
    wishlists, each as an immutable row.

    Relations are held by identifier (a wish stores its owner's id, an offer
    the ids of its contributor and its wish); the loaded object graphs the
    controllers render are built from these rows in module `Views`.
    Money columns are `decimal(10, 2)`; they are kept here as integer cents.
 */
module Entities {
  import opened Results

  type Id = nat

  /** A `decimal(10, 2)` column holds at most 99999999.99, i.e. fewer than 10^10 cents. */
  const MoneyLimit: int := 10_000_000_000

  /** `@Min(0.01)` on a wish price, in cents. */
  const MinPrice: int := 1

  /** Column lengths of a wish. */
  const WishNameMax: nat := 250
  const WishDescriptionMax: nat := 1024

  /** Column lengths of a wishlist. */
  const ListNameMax: nat := 250
  const ListDescriptionMax: nat := 1500

  /** A registered user. `profile` stands for the public profile columns
      (about, avatar, timestamps) that the core only copies through. */
  datatype User = User(id: Id, username: string, profile: string, email: string, password: string)

  /** The authenticated principal of a request, as the contribution
      operation types it: an id and possibly an e-mail address. */
  datatype Principal = Principal(id: Id, email: Option<string>)

  /** A wish: a desired item with a target `price` and the funding `raised` so far. */
  datatype Wish = Wish(
    id: Id,
    name: string,
    link: string,
    image: string,
    price: int,        // cents
    raised: int,       // cents
    ownerId: Id,
    description: string,
    copied: nat,
    createdAt: nat)

  /** One contribution of `amount` cents by user `userId` to wish `itemId`. */
  datatype Offer = Offer(id: Id, amount: int, hidden: bool, userId: Id, itemId: Id)

  /** A named collection of references to wishes. */
  datatype Wishlist = Wishlist(
    id: Id,
    name: string,
    description: string,
    image: string,
    ownerId: Id,
    items: seq<Id>)

  /** A money amount representable in a `decimal(10, 2)` column. */
  predicate IsMoney(cents: int) {
    0 <= cents < MoneyLimit
  }

  /** The column bounds of a wish row together with the funding bound
      `0 <= raised <= price`. */
  predicate WishShape(w: Wish) {
    && 1 <= |w.name| <= WishNameMax
    && 1 <= |w.description| <= WishDescriptionMax
    && MinPrice <= w.price
    && IsMoney(w.price)
    && 0 <= w.raised <= w.price
  }

  /** A wish row as the database creates it: the columns `raised` and
      `copied` take their defaults, and everything else comes from the caller. */
  function FreshWish(id: Id, name: string, link: string, image: string, price: int,
                     description: string, ownerId: Id, createdAt: nat): (w: Wish)
    ensures w.raised == 0 && w.copied == 0
    ensures w.id == id && w.ownerId == ownerId && w.createdAt == createdAt
    ensures (w.name, w.link, w.image, w.price, w.description) == (name, link, image, price, description)
    ensures (&& 1 <= |name| <= WishNameMax && 1 <= |description| <= WishDescriptionMax
             && MinPrice <= price && IsMoney(price)) ==> WishShape(w)
  {
    Wish(id, name, link, image, price, 0, ownerId, description, 0, createdAt)
  }
}

=== FILE: offers_controller.dfy ===
/** `OffersController`: the only endpoint family that redacts hidden offers.

    A hidden offer's amount and contributor are rendered as `null` unless the
    viewer is the contributor or the owner of the wish. The viewer is
    `req.user?.id`, the contributor `user?.id ?? null` and the owner
    `item?.owner?.id ?? null`, compared with `!==`.
 */
module OffersController {
  import opened Results
  import opened Entities
  import opened Stores
  import opened Views
  import OffersService

  /** The contributor's id as the controller computes it. */
  function DonorId(g: OfferGraph): JsId {
    IdOrNull(g.user)
  }

  /** The wish owner's id as the controller computes it. */
  function OwnerId(g: OfferGraph): JsId {
    if g.item.Some? then IdOrNull(g.item.value.owner) else Null
  }

  /** The viewer may see a hidden offer: they are its contributor or the
      owner of its wish. */
  predicate Entitled(g: OfferGraph, viewer: JsId) {
    viewer == DonorId(g) || viewer == OwnerId(g)
  }

  /** `sanitizeWish` of this controller: the item with numeric money fields and
      a public owner. The `offers` relation of the item is never loaded here. */
  function SanitizeWish(item: Option<ItemGraph>): (r: Option<WishView>)
    ensures r.Some? <==> item.Some?
    ensures r.Some? ==>
      && r.value.id == item.value.wish.id
      && r.value.price == item.value.wish.price
      && r.value.raised == item.value.wish.raised
      && r.value.owner == SanitizeUser(item.value.owner, false)
      && r.value.offers.None?
  {
    match item
    case None => None
    case Some(g) => Some(RenderWish(g.wish, g.owner, None))
  }

  /** `sanitizeOffer(offer, currentUserId)`. */
  function SanitizeOffer(g: OfferGraph, viewer: JsId): (r: OfferView)
    ensures r.id == g.offer.id && r.hidden == g.offer.hidden
    // Withheld: a hidden offer shown to someone not entitled to it.
    ensures g.offer.hidden && !Entitled(g, viewer) ==> r.amount.None? && r.user.None?
    // Shown: an offer that is not hidden, or a viewer who is entitled.
    ensures !g.offer.hidden || Entitled(g, viewer) ==>
      r.amount == Some(g.offer.amount) && r.user == SanitizeUser(g.user, false)
    // A rendered contributor never carries an e-mail.
    ensures r.user.Some? ==> r.user.value.email.None?
    // The item is rendered whatever the offer's visibility.
    ensures r.item == SanitizeWish(g.item)
  {
    var shouldHide := g.offer.hidden && viewer != DonorId(g) && viewer != OwnerId(g);
    OfferView(g.offer.id, g.offer.hidden,
              if shouldHide then None else Some(g.offer.amount),
              if shouldHide then None else SanitizeUser(g.user, false),
              SanitizeWish(g.item))
  }

  /** `sanitizeOffers(offers, currentUserId)`: one viewer for every offer. */
  function SanitizeOffers(gs: seq<OfferGraph>, viewer: JsId): (r: seq<OfferView>)
    ensures |r| == |gs|
    ensures forall i :: 0 <= i < |gs| ==> r[i] == SanitizeOffer(gs[i], viewer)
  {
    seq(|gs|, i requires 0 <= i < |gs| => SanitizeOffer(gs[i], viewer))
  }

  /** The offer with primary key `id`, if any. */
  function FindOffer(offers: seq<Offer>, id: Id): (r: Option<Offer>)
    ensures r.Some? ==> r.value in offers && r.value.id == id
    ensures r.None? <==> forall o :: o in offers ==> o.id != id
  {
    if |offers| == 0 then None
    else if offers[0].id == id then Some(offers[0])
    else FindOffer(offers[1..], id)
  }

  /** `GET /offers/:id`. */
  function FindOne(s: Store, id: Id, viewer: JsId): (r: Result<OfferView>)
    ensures r == Err(NotFound) <==> forall o :: o in s.offers ==> o.id != id
    ensures r.Ok? ==> r.value.id == id
    // The body is the stored offer with that key, redacted for this viewer.
    ensures r.Ok? ==> exists o :: o in s.offers && o.id == id && r.value == SanitizeOffer(LoadOffer(s, o), viewer)
  {
    match FindOffer(s.offers, id)
    case None => Err(NotFound)
    case Some(o) => Ok(SanitizeOffer(LoadOffer(s, o), viewer))
  }

  /** `GET /offers`: every offer, redacted for one viewer. */
  function FindAll(s: Store, viewer: JsId): (r: seq<OfferView>)
    ensures |r| == |s.offers|
    ensures forall i :: 0 <= i < |r| ==> r[i].id == s.offers[i].id && r[i].hidden == s.offers[i].hidden
    // Each body is its stored offer, loaded with its relations and redacted for this viewer.
    ensures forall i :: 0 <= i < |r| ==> r[i] == SanitizeOffer(LoadOffer(s, s.offers[i]), viewer)
  {
    SanitizeOffers(seq(|s.offers|, i requires 0 <= i < |s.offers| => LoadOffer(s, s.offers[i])), viewer)
  }

  /** `POST /offers`: record the contribution, then render the stored offer
      for the contributor. */
  function Create(s: Store, dto: OffersService.CreateOfferDto, user: Principal): (r: Result<OfferView>)
    requires OffersService.WellFormed(dto)
    ensures r.Err? <==> OffersService.CreateForUser(s, dto, user).Err?
    ensures r.Err? ==> r.error == OffersService.CreateForUser(s, dto, user).error
    ensures r.Ok? ==> r.value.id == s.nextId && r.value.hidden == (dto.hidden == Some(true))
    // The body is the stored offer, re-read with `user, item, item.owner` and
    // redacted for the caller.
    ensures r.Ok? ==> var c := OffersService.CreateForUser(s, dto, user).value;
      r.value == SanitizeOffer(LoadOffer(c.store, c.offer), Num(user.id))
    // Its item is the wish as funded by this contribution.
    ensures r.Ok? ==>
      && r.value.item.Some?
      && r.value.item.value.id == s.wishes[dto.itemId].id
      && r.value.item.value.price == s.wishes[dto.itemId].price
      && r.value.item.value.raised == s.wishes[dto.itemId].raised + dto.amount
  {
    match OffersService.CreateForUser(s, dto, user)
    case Err(e) => Err(e)
    case Ok(c) => Ok(SanitizeOffer(LoadOffer(c.store, c.offer), ViewerOf(Some(user))))
  }

  /** With primary keys unique, `GET /offers/:id` of a stored offer renders
      that very offer, exactly as `GET /offers` lists it. */
  lemma {:induction false} FindOneAgreesWithFindAll(s: Store, k: nat, viewer: JsId)
    requires OffersKeyed(s) && k < |s.offers|
    ensures FindOne(s, s.offers[k].id, viewer) == Ok(FindAll(s, viewer)[k])
  {
    var o := FindOffer(s.offers, s.offers[k].id).value;
    var j :| 0 <= j < |s.offers| && s.offers[j] == o;
    assert j == k;
  }

  /** Visibility in terms of the stored rows: when the contributor and the
      wish owner exist, a viewer sees a hidden offer's amount and contributor
      exactly when they are one of the two. */
  lemma {:induction false} StoredOfferVisibility(s: Store, o: Offer, viewer: Id)
    requires UsersKeyed(s)
    requires o.userId in s.users && o.itemId in s.wishes && s.wishes[o.itemId].ownerId in s.users
    ensures var r := SanitizeOffer(LoadOffer(s, o), Num(viewer));
      && (r.amount.Some? <==> !o.hidden || viewer == o.userId || viewer == s.wishes[o.itemId].ownerId)
      && (r.amount.Some? ==> r.amount == Some(o.amount) && r.user.Some? && r.user.value.id == o.userId)
      && (r.amount.None? ==> r.user.None?)
  {
    var g := LoadOffer(s, o);
    assert DonorId(g) == Num(o.userId);
    assert OwnerId(g) == Num(s.wishes[o.itemId].ownerId);
  }

  /** A viewer `undefined` (`req.user?.id` without a user) never matches a
      contributor or an owner, which default to `null`: every hidden offer is
      withheld from it. This is a property of `sanitizeOffer` alone: every
      offers route is behind the JWT guard, whose strategy rejects a token
      without a user row, so no request reaches it without a user. */
  lemma AbsentViewerSeesNoHiddenOffer(g: OfferGraph)
    requires g.offer.hidden
    ensures !Entitled(g, ViewerOf(None))
    ensures var r := SanitizeOffer(g, ViewerOf(None)); r.amount.None? && r.user.None?
  {
  }

  /** The contributor always sees their own offer in the response to
      `POST /offers`, hidden or not: the amount sent and their own public
      profile. */
  lemma ContributorSeesOwnOffer(s: Store, dto: OffersService.CreateOfferDto, user: Principal)
    requires OffersService.WellFormed(dto) && UsersKeyed(s) && user.id in s.users
    requires Create(s, dto, user).Ok?
    ensures Create(s, dto, user).value.amount == Some(dto.amount)
    ensures Create(s, dto, user).value.user == SanitizeUser(Some(s.users[user.id]), false)
  {
    var c := OffersService.CreateForUser(s, dto, user).value;
    assert c.store.users == s.users;
    assert DonorId(LoadOffer(c.store, c.offer)) == Num(user.id);
  }
}

=== FILE: offers_service.dfy ===
/** The contribution ledger: `OffersService.createForUser`.

    A contribution is checked against the wish in a fixed order (the wish
    exists, the contributor is not its owner, the wish still has room for the
    amount) and only then written: one new offer, and the wish's `raised`
    advanced by the amount. The mail notification that follows the writes is
    returned as a record; its delivery is not modelled.
 */
module OffersService {
  import opened Results
  import opened Entities
  import opened Stores

  /** The body of `POST /offers`. `hidden` may be omitted. */
  datatype CreateOfferDto = CreateOfferDto(amount: int, itemId: Id, hidden: Option<bool>)

  /** The payload handed to the mail service once both writes are done. */
  datatype Notice = Notice(
    wishTitle: string,
    ownerEmail: Option<string>,
    donorEmail: Option<string>,
    amount: int,
    hidden: bool)

  /** A successful contribution: the store after both writes, the offer that
      was inserted and the notification that followed. */
  datatype Contribution = Contribution(store: Store, offer: Offer, notice: Notice)

  /** The validation constraints of `CreateOfferDto`: a positive amount and a
      positive integer wish id. */
  predicate WellFormed(dto: CreateOfferDto) {
    dto.amount > 0 && dto.itemId > 0
  }

  /** The wish has room for `amount` more: `raised + amount <= price`.
      The bound is inclusive, so a contribution may fill the wish exactly. */
  predicate HasRoom(w: Wish, amount: int) {
    w.raised + amount <= w.price
  }

  /** The owner's e-mail as the loaded `owner` relation gives it. */
  function OwnerEmail(s: Store, w: Wish): (r: Option<string>)
    ensures r.Some? <==> w.ownerId in s.users
    ensures r.Some? ==> r.value == s.users[w.ownerId].email
  {
    if w.ownerId in s.users then Some(s.users[w.ownerId].email) else None
  }

  /** Records a contribution of `dto.amount` by `user` to wish `dto.itemId`. */
  function CreateForUser(s: Store, dto: CreateOfferDto, user: Principal): (r: Result<Contribution>)
    requires WellFormed(dto)
    // The three rejections, each in terms of the state it was checked against.
    ensures r == Err(NotFound) <==> dto.itemId !in s.wishes
    ensures r == Err(BadRequest(OwnWish))
        <==> dto.itemId in s.wishes && s.wishes[dto.itemId].ownerId == user.id
    ensures r == Err(BadRequest(ExceedsRemaining))
        <==> && dto.itemId in s.wishes
             && s.wishes[dto.itemId].ownerId != user.id
             && !HasRoom(s.wishes[dto.itemId], dto.amount)
    // Success: exactly one new offer, carrying the request's data.
    ensures r.Ok? ==>
      && r.value.store.offers == s.offers + [r.value.offer]
      && r.value.offer.amount == dto.amount
      && r.value.offer.hidden == (dto.hidden == Some(true))
      && r.value.offer.userId == user.id
      && r.value.offer.itemId == dto.itemId
      && r.value.offer.id == s.nextId < r.value.store.nextId
    // Success: the wish's `raised` advances by the amount, nothing else changes.
    ensures r.Ok? ==>
      var w := s.wishes[dto.itemId];
      && r.value.store.wishes.Keys == s.wishes.Keys
      && r.value.store.wishes[dto.itemId] == w.(raised := w.raised + dto.amount)
      && (forall id :: id in s.wishes && id != dto.itemId ==> r.value.store.wishes[id] == s.wishes[id])
      && r.value.store.users == s.users
      && r.value.store.wishlists == s.wishlists
    // The notification names the wish, both parties and the numeric amount.
    ensures r.Ok? ==>
      && r.value.notice.wishTitle == s.wishes[dto.itemId].name
      && r.value.notice.ownerEmail == OwnerEmail(s, s.wishes[dto.itemId])
      && r.value.notice.donorEmail == user.email
      && r.value.notice.amount == dto.amount
      && r.value.notice.hidden == r.value.offer.hidden
  {
    if dto.itemId !in s.wishes then Err(NotFound)
    else
      var wish := s.wishes[dto.itemId];
      if wish.ownerId == user.id then Err(BadRequest(OwnWish))
      else if wish.raised + dto.amount > wish.price then Err(BadRequest(ExceedsRemaining))
      else
        var hidden := dto.hidden.GetOr(false);
        var offer := Offer(s.nextId, dto.amount, hidden, user.id, dto.itemId);
        Ok(Contribution(Fund(s, offer), offer, Notice(wish.name, OwnerEmail(s, wish), user.email, dto.amount, hidden)))
  }

  /** Whether the mail service goes on to send the notice: it skips, with
      only a warning, a notice that lacks either address. An empty address
      counts as missing, as it is falsy in JavaScript. */
  predicate Delivered(n: Notice) {
    && n.ownerEmail.Some? && |n.ownerEmail.value| > 0
    && n.donorEmail.Some? && |n.donorEmail.value| > 0
  }

  /** A successful contribution is mailed exactly when the wish's owner row
      exists with a non-empty address and the contributor has one too; the
      contribution itself stands either way. */
  lemma NotificationDeliveredIff(s: Store, dto: CreateOfferDto, user: Principal)
    requires WellFormed(dto) && CreateForUser(s, dto, user).Ok?
    ensures var owner := s.wishes[dto.itemId].ownerId;
      Delivered(CreateForUser(s, dto, user).value.notice)
      <==> && owner in s.users && |s.users[owner].email| > 0
           && user.email.Some? && |user.email.value| > 0
  {
  }

  /** Every successful contribution keeps the store valid: `raised` stays
      within `0..price` and still equals the sum of the wish's offers. */
  lemma ContributionKeepsLedger(s: Store, dto: CreateOfferDto, user: Principal)
    requires Valid(s) && WellFormed(dto)
    requires CreateForUser(s, dto, user).Ok?
    ensures Valid(CreateForUser(s, dto, user).value.store)
    ensures Contributed(CreateForUser(s, dto, user).value.store.offers, dto.itemId)
         == s.wishes[dto.itemId].raised + dto.amount
  {
    var offer := CreateForUser(s, dto, user).value.offer;
    FundKeepsValid(s, offer);
    ContributedAppend(s.offers, offer, dto.itemId);
  }
}

=== FILE: results.dfy ===
/** Optional values and the failures the services raise.

    The services signal failure by throwing NestJS HTTP exceptions; here every
    operation returns a `Result` instead, so that a failed call visibly produces
    no new store.
 */
module Results {

  /** A value that may be absent (`null` / `undefined` in the source). */
  datatype Option<+T> = None | Some(value: T) {

    /** The value, or `default` when absent (the source's `??` operator). */
    function GetOr(default: T): T {
      match this
      case Some(v) => v
      case None => default
    }
  }

  /** An optional field of a JSON request body. `@IsOptional()` lets both a
      missing key (`undefined`) and an explicit `null` through validation,
      and the services tell them apart: `!== undefined` holds for `null`. */
  datatype Field<+T> = Absent | JsonNull | Given(value: T) {

    /** The key was sent, possibly as `null` (`field !== undefined`). */
    predicate Sent() {
      !Absent?
    }

    /** The given value, or `default` when the field is not given. */
    function GivenOr(default: T): T {
      match this
      case Given(v) => v
      case _ => default
    }
  }

  /** Why a request was rejected with HTTP 400. */
  datatype Reason =
    | OwnWish           // "You cannot contribute to your own wish"
    | ExceedsRemaining  // "Contribution exceeds remaining amount"
    | PriceLocked       // "Cannot change price after contributions"

  /** The exception classes thrown by the core. */
  datatype Error =
    | NotFound
    | Forbidden
    | BadRequest(reason: Reason)
    | StorageFailure  // the database refused the write: `null` in a NOT NULL column (HTTP 500)

  datatype Result<+T> = Ok(value: T) | Err(error: Error)
}

=== FILE: scenarios.dfy ===
/** Worked examples on small concrete stores: the inclusive funding bound,
    the refusal of one's own wish, dropped wishlist ids, the order of the
    ownership checks on removal, and a hidden offer seen by different viewers.
 */
module Scenarios {
  import opened Results
  import opened Entities
  import opened Stores
  import opened Views
  import OffersService
  import OffersController
  import WishesService
  import WishlistsService

  const Alice := User(1, "alice", "", "alice@example.com", "hash-a")
  const Bob := User(2, "bob", "", "bob@example.com", "hash-b")

  /** Alice's wish 3, priced 100.00, nothing raised yet. */
  const Bike := Wish(3, "bike", "", "", 10000, 0, 1, "a red bike", 0, 0)

  const Start := Store(map[1 := Alice, 2 := Bob], map[3 := Bike], [], map[], 4, 1)

  const AsBob := Principal(2, Some("bob@example.com"))

  /** Price 100.00: 60.00 is accepted; 41.00 more would exceed the price and
      is refused with nothing written; 40.00 fills the wish exactly. */
  lemma InclusiveFundingBound()
    ensures var first := OffersService.CreateForUser(Start, OffersService.CreateOfferDto(6000, 3, None), AsBob);
      && first.Ok? && first.value.store.wishes[3].raised == 6000
      && OffersService.CreateForUser(first.value.store, OffersService.CreateOfferDto(4100, 3, None), AsBob)
         == Err(BadRequest(ExceedsRemaining))
      && var last := OffersService.CreateForUser(first.value.store, OffersService.CreateOfferDto(4000, 3, Some(true)), AsBob);
         last.Ok? && last.value.store.wishes[3].raised == 10000 && |last.value.store.offers| == 2
  {
    var first := OffersService.CreateForUser(Start, OffersService.CreateOfferDto(6000, 3, None), AsBob);
    assert first.value.store.wishes[3] == Bike.(raised := 6000);
  }

  /** Alice cannot contribute to her own wish, whatever the amount. */
  lemma NoContributionToOwnWish(amount: int)
    requires amount > 0
    ensures OffersService.CreateForUser(Start, OffersService.CreateOfferDto(amount, 3, None), Principal(1, Some("alice@example.com")))
         == Err(BadRequest(OwnWish))
  {
  }

  /** A wishlist created with ids `[5, 999]` where only wish 5 exists holds wish 5 alone. */
  lemma UnknownIdDropped()
    ensures var s := Start.(wishes := map[5 := Bike.(id := 5)], nextId := 6);
      WishlistsService.CreateForOwner(s, WishlistsService.CreateWishlistDto("gifts", None, "", [5, 999]), 1).wishlist.items == [5]
  {
    var wishes := map[5 := Bike.(id := 5)];
    assert [5, 999][..1] == [5] && [5][..0] == [];
    assert WishlistsService.Resolve(wishes, [5]) == [5];
  }

  /** Alice's wishlist 8, holding her bike. An update that omits `itemsId`
      keeps the bike; one that sends `"itemsId": null` empties the list. */
  lemma NullItemsIdEmptiesList()
    ensures var s := Start.(wishlists := map[8 := Wishlist(8, "gifts", "", "", 1, [3])], nextId := 9);
      && WishlistsService.UpdateWithChecks(s, 8, WishlistsService.UpdateWishlistDto(None, None, None, Absent), 1)
           .value.wishlist.items == [3]
      && WishlistsService.UpdateWithChecks(s, 8, WishlistsService.UpdateWishlistDto(None, None, None, JsonNull), 1)
           .value.wishlist.items == []
  {
  }

  /** Bob may not remove Alice's wish; Alice may, and gets the removed row back. */
  lemma RemovalChecksOwnership()
    ensures WishesService.RemoveWithChecks(Start, 3, 2) == Err(Forbidden)
    ensures WishesService.RemoveWithChecks(Start, 4, 2) == Err(NotFound)
    ensures var r := WishesService.RemoveWithChecks(Start, 3, 1);
      r.Ok? && r.value.wish == Bike && 3 !in r.value.store.wishes
  {
  }

  /** Bob's hidden contribution of 25.00: withheld from a third user and
      from an `undefined` viewer, shown to Bob and to Alice. The `undefined`
      viewer exercises `sanitizeOffer` alone; the guarded routes always
      supply a user. */
  lemma HiddenOfferViewers()
    ensures var s := Start.(users := Start.users[7 := User(7, "carol", "", "carol@example.com", "hash-c")]);
      var g := LoadOffer(s, Offer(10, 2500, true, 2, 3));
      && OffersController.SanitizeOffer(g, Num(7)).amount.None?
      && OffersController.SanitizeOffer(g, Undefined).amount.None?
      && OffersController.SanitizeOffer(g, Num(2)).amount == Some(2500)
      && OffersController.SanitizeOffer(g, Num(1)).amount == Some(2500)
  {
  }

  /** A `null` viewer is entitled to a hidden offer whose contributor and
      wish owner rows are both gone: both ids fall back to `null`. */
  lemma NullViewerMatchesMissingParties()
    ensures var g := LoadOffer(Start.(users := map[]), Offer(10, 2500, true, 2, 3));
      OffersController.SanitizeOffer(g, Null).amount == Some(2500)
  {
  }
}

=== FILE: stores.dfy ===
/** The persistence layer as one immutable value.

    Users, wishes and wishlists are maps keyed by id. Offers are only ever
    inserted by this core, so they are kept as an append-only ledger in
    insertion order. `nextId` is the next generated primary key and `clock`
    the next creation timestamp; both only grow.
 */
module Stores {
  import opened Results
  import opened Entities

  datatype Store = Store(
    users: map<Id, User>,
    wishes: map<Id, Wish>,
    offers: seq<Offer>,
    wishlists: map<Id, Wishlist>,
    nextId: Id,
    clock: nat)

  /** The offers made towards wish `wishId`, in insertion order
      (the `offers` relation of a wish). */
  function OffersOf(offers: seq<Offer>, wishId: Id): (r: seq<Offer>)
    ensures |r| <= |offers|
    ensures forall o :: o in r <==> o in offers && o.itemId == wishId
  {
    if |offers| == 0 then []
    else
      var last := offers[|offers| - 1];
      OffersOf(offers[..|offers| - 1], wishId) + (if last.itemId == wishId then [last] else [])
  }

  /** The sum of the amounts of `offers`. */
  function Total(offers: seq<Offer>): int {
    if |offers| == 0 then 0 else Total(offers[..|offers| - 1]) + offers[|offers| - 1].amount
  }

  /** The amount the ledger says wish `wishId` has raised. */
  function Contributed(offers: seq<Offer>, wishId: Id): int {
    Total(OffersOf(offers, wishId))
  }

  /** The wish has at least one contributor (`wish.offers.length > 0`). */
  predicate HasOffers(offers: seq<Offer>, wishId: Id) {
    |OffersOf(offers, wishId)| > 0
  }

  /** The user row with key `id`, if any (loading a relation). */
  function LookupUser(s: Store, id: Id): (r: Option<User>)
    ensures r.Some? <==> id in s.users
    ensures r.Some? ==> r.value == s.users[id]
  {
    if id in s.users then Some(s.users[id]) else None
  }

  /** The state the database maintains between requests: keys match the rows'
      ids, no two offers share an id, every wish, offer and wishlist id is
      below the id generator, each wish satisfies its column bounds and
      `0 <= raised <= price`, and `raised` equals the sum of the wish's
      offers. */
  predicate Valid(s: Store) {
    UsersKeyed(s) && WishesFunded(s) && OffersBounded(s) && OffersKeyed(s) && WishlistsKeyed(s)
  }

  /** Every user row sits under its own id. */
  predicate UsersKeyed(s: Store) {
    forall id :: id in s.users ==> s.users[id].id == id
  }

  /** Every wish sits under its own id, below the id generator, within its
      column bounds and `0 <= raised <= price`, with `raised` equal to the
      sum of its offers. */
  predicate WishesFunded(s: Store) {
    forall id :: id in s.wishes ==>
      && s.wishes[id].id == id
      && id < s.nextId
      && WishShape(s.wishes[id])
      && s.wishes[id].raised == Contributed(s.offers, id)
  }

  /** Every offer is positive and refers to ids already generated. */
  predicate OffersBounded(s: Store) {
    forall i :: 0 <= i < |s.offers| ==>
      && s.offers[i].amount > 0
      && s.offers[i].itemId < s.nextId
      && s.offers[i].id < s.nextId
  }

  /** No two offers share a primary key. */
  predicate OffersKeyed(s: Store) {
    forall i, j :: 0 <= i < j < |s.offers| ==> s.offers[i].id != s.offers[j].id
  }

  /** Every wishlist sits under its own id, below the id generator. */
  predicate WishlistsKeyed(s: Store) {
    forall id :: id in s.wishlists ==> s.wishlists[id].id == id && id < s.nextId
  }

  /** Appending one offer extends the offers of its own wish by that offer
      and leaves every other wish's offers alone. */
  lemma {:induction false} OffersOfAppend(offers: seq<Offer>, o: Offer, wishId: Id)
    ensures OffersOf(offers + [o], wishId)
         == OffersOf(offers, wishId) + (if o.itemId == wishId then [o] else [])
  {
    assert (offers + [o])[..|offers|] == offers;
  }

  /** The total of two consecutive runs of offers is the sum of their totals. */
  lemma {:induction false} TotalConcat(a: seq<Offer>, b: seq<Offer>)
    ensures Total(a + b) == Total(a) + Total(b)
    decreases |b|
  {
    if |b| == 0 {
      assert a + b == a;
    } else {
      var b' := b[..|b| - 1];
      assert (a + b)[..|a + b| - 1] == a + b';
      TotalConcat(a, b');
    }
  }

  /** Appending an offer raises the ledger amount of its own wish by the
      offer's amount and of no other wish. */
  lemma ContributedAppend(offers: seq<Offer>, o: Offer, wishId: Id)
    ensures Contributed(offers + [o], wishId)
         == Contributed(offers, wishId) + (if o.itemId == wishId then o.amount else 0)
  {
    OffersOfAppend(offers, o, wishId);
    TotalConcat(OffersOf(offers, wishId), if o.itemId == wishId then [o] else []);
    assert Total([o]) == Total([]) + o.amount;
  }

  /** A wish that no offer references has no offers and has raised nothing. */
  lemma {:induction false} UnreferencedHasNoOffers(offers: seq<Offer>, wishId: Id)
    requires forall i :: 0 <= i < |offers| ==> offers[i].itemId != wishId
    ensures OffersOf(offers, wishId) == []
    ensures Contributed(offers, wishId) == 0
  {
    if |offers| > 0 {
      UnreferencedHasNoOffers(offers[..|offers| - 1], wishId);
    }
  }

  /** In a valid store a wish without offers has raised nothing: this is
      what lets its price change freely. */
  lemma UnfundedWishRaisedNothing(s: Store, wishId: Id)
    requires Valid(s) && wishId in s.wishes
    requires !HasOffers(s.offers, wishId)
    ensures s.wishes[wishId].raised == 0
  {
    assert OffersOf(s.offers, wishId) == [];
  }

  /** The store after recording offer `o` against wish `o.itemId` and
      advancing that wish's `raised` by the offer's amount. */
  function Fund(s: Store, o: Offer): Store
    requires o.itemId in s.wishes
  {
    var w := s.wishes[o.itemId];
    s.(offers := s.offers + [o],
       wishes := s.wishes[o.itemId := w.(raised := w.raised + o.amount)],
       nextId := s.nextId + 1)
  }

  /** Funding keeps the ledger consistent: if the offer is positive, fits
      within the price and carries a fresh id, the funded store is valid and
      the wish's `raised` is again the sum of its offers. */
  lemma FundKeepsValid(s: Store, o: Offer)
    requires Valid(s) && o.itemId in s.wishes
    requires o.amount > 0 && o.id == s.nextId
    requires s.wishes[o.itemId].raised + o.amount <= s.wishes[o.itemId].price
    ensures Valid(Fund(s, o))
  {
    FundKeepsWishesFunded(s, o);
    FundKeepsOffersBounded(s, o);
    FundKeepsOffersKeyed(s, o);
  }

  lemma FundKeepsWishesFunded(s: Store, o: Offer)
    requires WishesFunded(s) && o.itemId in s.wishes
    requires s.wishes[o.itemId].raised + o.amount <= s.wishes[o.itemId].price
    requires o.amount > 0
    ensures WishesFunded(Fund(s, o))
  {
    var s' := Fund(s, o);
    forall id | id in s'.wishes
      ensures && s'.wishes[id].id == id && id < s'.nextId && WishShape(s'.wishes[id])
              && s'.wishes[id].raised == Contributed(s'.offers, id)
    {
      ContributedAppend(s.offers, o, id);
      if id != o.itemId {
        assert s'.wishes[id] == s.wishes[id];
      }
    }
  }

  lemma FundKeepsOffersBounded(s: Store, o: Offer)
    requires OffersBounded(s) && o.itemId in s.wishes && o.itemId < s.nextId
    requires o.amount > 0 && o.id == s.nextId
    ensures OffersBounded(Fund(s, o))
  {
    var s' := Fund(s, o);
    forall i | 0 <= i < |s'.offers|
      ensures s'.offers[i].amount > 0 && s'.offers[i].itemId < s'.nextId && s'.offers[i].id < s'.nextId
    {
      if i < |s.offers| {
        assert s'.offers[i] == s.offers[i];
      }
    }
  }

  /** The offer id taken from the generator is new to the ledger. */
  lemma FundKeepsOffersKeyed(s: Store, o: Offer)
    requires OffersBounded(s) && OffersKeyed(s) && o.itemId in s.wishes && o.id == s.nextId
    ensures OffersKeyed(Fund(s, o))
  {
    var s' := Fund(s, o);
    forall i, j | 0 <= i < j < |s'.offers|
      ensures s'.offers[i].id != s'.offers[j].id
    {
      assert s'.offers[i] == s.offers[i];
      if j < |s.offers| {
        assert s'.offers[j] == s.offers[j];
      }
    }
  }

  /** The store after inserting a new wish row under the next generated id
      and stamping it with the current clock. */
  function InsertWish(s: Store, w: Wish): Store {
    s.(wishes := s.wishes[w.id := w], nextId := s.nextId + 1, clock := s.clock + 1)
  }

  /** Inserting a wish that has raised nothing, under a freshly generated id
      and within its column bounds, keeps the store valid: no earlier offer
      can refer to the new id. */
  lemma InsertWishKeepsValid(s: Store, w: Wish)
    requires Valid(s)
    requires w.id == s.nextId && WishShape(w) && w.raised == 0
    ensures Valid(InsertWish(s, w))
  {
    var s' := InsertWish(s, w);
    UnreferencedHasNoOffers(s.offers, w.id);
    assert WishesFunded(s');
    assert OffersBounded(s');
  }

  /** Replacing a wish row by one with the same id, the same `raised` and
      valid columns keeps the store valid. */
  lemma ReplaceWishKeepsValid(s: Store, w: Wish)
    requires Valid(s) && w.id in s.wishes
    requires WishShape(w) && w.raised == s.wishes[w.id].raised
    ensures Valid(s.(wishes := s.wishes[w.id := w]))
  {
    var s' := s.(wishes := s.wishes[w.id := w]);
    assert WishesFunded(s');
  }

  /** A store with no rows at all is valid. */
  lemma EmptyStoreValid(nextId: Id, clock: nat)
    ensures Valid(Store(map[], map[], [], map[], nextId, clock))
  {
  }
}

=== FILE: users_controller.dfy ===
/** `UsersController`: profiles and the wishes of a user.

    The only renderer with an e-mail option: the caller's own profile
    (`GET me`, `PATCH me`) and the search results (`POST find`) carry e-mail
    addresses; a profile looked up by username does not. Wishes are rendered
    with every offer, hidden or not, as `WishesController` does.
 */
module UsersController {
  import opened Results
  import opened Entities
  import opened Stores
  import opened Views
  import WishesService
  import WishesController

  /** `sanitizeWish(wish)`: numeric money fields, the owner without e-mail,
      and each loaded offer with a numeric amount and a contributor without
      e-mail; offers that were not loaded become `[]`. */
  function SanitizeWish(g: WishGraph): (r: WishView)
    ensures r.id == g.wish.id && r.price == g.wish.price && r.raised == g.wish.raised
    ensures r.owner == SanitizeUser(g.owner, false)
    ensures r.offers.Some? && |r.offers.value| == (if g.offers.Some? then |g.offers.value| else 0)
    ensures g.offers.Some? ==> forall i :: 0 <= i < |g.offers.value| ==>
      && r.offers.value[i].id == g.offers.value[i].offer.id
      && r.offers.value[i].hidden == g.offers.value[i].offer.hidden
      && r.offers.value[i].amount == Some(g.offers.value[i].offer.amount)
      && r.offers.value[i].user == SanitizeUser(g.offers.value[i].user, false)
  {
    var offers := if g.offers.Some? then g.offers.value else [];
    var rendered := seq(|offers|, i requires 0 <= i < |offers| =>
      OfferView(offers[i].offer.id, offers[i].offer.hidden, Some(offers[i].offer.amount),
                SanitizeUser(offers[i].user, false), None));
    RenderWish(g.wish, g.owner, Some(rendered))
  }

  /** This controller's wish rendering is the one of `WishesController`:
      neither redacts hidden offers. */
  lemma SameRenderingAsWishes(g: WishGraph)
    ensures SanitizeWish(g) == WishesController.SanitizeWish(g)
  {
    var a := SanitizeWish(g).offers.value;
    var b := WishesController.SanitizeWish(g).offers.value;
    assert |a| == |b|;
    forall i | 0 <= i < |a|
      ensures a[i] == b[i]
    {
    }
    assert a == b;
  }

  /** `sanitizeWishes(wishes)`: pointwise, in order, and the same list the
      wishes controller renders. */
  function SanitizeWishes(gs: seq<WishGraph>): (r: seq<WishView>)
    ensures |r| == |gs|
    ensures forall i :: 0 <= i < |gs| ==> r[i] == SanitizeWish(gs[i])
    ensures r == WishesController.SanitizeWishes(gs)
  {
    var r := seq(|gs|, i requires 0 <= i < |gs| => SanitizeWish(gs[i]));
    assert forall i :: 0 <= i < |gs| ==> r[i] == WishesController.SanitizeWishes(gs)[i] by {
      forall i | 0 <= i < |gs| {
        SameRenderingAsWishes(gs[i]);
      }
    }
    r
  }

  /** `GET /users/me`: the caller's own row, with e-mail. */
  function FindOwn(s: Store, me: Principal): (r: Result<UserView>)
    ensures r == Err(NotFound) <==> me.id !in s.users
    ensures r.Ok? ==> Some(r.value) == SanitizeUser(Some(s.users[me.id]), true)
    ensures r.Ok? ==> r.value.email == Some(s.users[me.id].email)
  {
    match LookupUser(s, me.id)
    case None => Err(NotFound)
    case Some(u) => Ok(SanitizeUser(Some(u), true).value)
  }

  /** `PATCH /users/me` after the row was written: the re-read row, with
      e-mail, or NotFound when it is gone. */
  function UpdateOwnResponse(updated: Option<User>): (r: Result<UserView>)
    ensures r == Err(NotFound) <==> updated.None?
    ensures r.Ok? ==> r.value.id == updated.value.id && r.value.email == Some(updated.value.email)
    ensures r.Ok? ==> Some(r.value) == SanitizeUser(updated, true)
  {
    match updated
    case None => Err(NotFound)
    case Some(u) => Ok(SanitizeUser(Some(u), true).value)
  }

  /** `GET /users/:username`: a user with that username, without e-mail. */
  method FindPublic(s: Store, username: string) returns (r: Result<UserView>)
    ensures r == Err(NotFound) <==> forall id :: id in s.users ==> s.users[id].username != username
    ensures r.Ok? ==> r.value.username == username && r.value.email.None?
    ensures r.Ok? ==> exists id :: id in s.users && s.users[id].id == r.value.id && s.users[id].username == username
    // The body is the public profile of such a row.
    ensures r.Ok? ==> exists id ::
      id in s.users && s.users[id].username == username && Some(r.value) == SanitizeUser(Some(s.users[id]), false)
  {
    if id :| id in s.users && s.users[id].username == username {
      r := Ok(SanitizeUser(Some(s.users[id]), false).value);
    } else {
      r := Err(NotFound);
    }
  }

  /** `POST /users/find`: the matching rows, each with e-mail. */
  function FindManyResponse(users: seq<User>): (r: seq<UserView>)
    ensures |r| == |users|
    ensures forall i :: 0 <= i < |users| ==>
      r[i].id == users[i].id && r[i].username == users[i].username && r[i].email == Some(users[i].email)
    ensures forall i :: 0 <= i < |users| ==> Some(r[i]) == SanitizeUser(Some(users[i]), true)
  {
    seq(|users|, i requires 0 <= i < |users| => SanitizeUser(Some(users[i]), true).value)
  }

  /** The wishes owned by `ownerId`, each with its owner and its offers'
      contributors, rendered (`GET /users/me/wishes`). */
  method OwnedWishes(s: Store, ownerId: Id) returns (r: seq<WishView>)
    ensures forall v :: v in r ==>
      exists w :: w in s.wishes.Values && w.ownerId == ownerId && v == SanitizeWish(LoadWish(s, w))
    ensures forall id :: id in s.wishes && s.wishes[id].ownerId == ownerId ==>
      SanitizeWish(LoadWish(s, s.wishes[id])) in r
    // One rendering per owned row: nothing is listed twice.
    ensures |r| == |set id | id in s.wishes && s.wishes[id].ownerId == ownerId|
  {
    var owned := map id | id in s.wishes && s.wishes[id].ownerId == ownerId :: s.wishes[id];
    var rows := WishesService.Rows(owned);
    assert owned.Keys == set id | id in s.wishes && s.wishes[id].ownerId == ownerId;
    OwnedRows(s, ownerId, owned, rows);
    r := RenderRows(s, rows);
    RenderedRows(s, ownerId, rows, r);
  }

  /** `sanitizeWishes` of the rows, each loaded with `owner, offers, offers.user`. */
  function RenderRows(s: Store, rows: seq<Wish>): (r: seq<WishView>)
    ensures |r| == |rows|
    ensures forall i :: 0 <= i < |rows| ==> r[i] == SanitizeWish(LoadWish(s, rows[i]))
  {
    SanitizeWishes(seq(|rows|, i requires 0 <= i < |rows| => LoadWish(s, rows[i])))
  }

  /** The rows of the owner's part of the wishes table are exactly that
      owner's wishes. */
  lemma OwnedRows(s: Store, ownerId: Id, owned: map<Id, Wish>, rows: seq<Wish>)
    requires forall id :: id in owned <==> id in s.wishes && s.wishes[id].ownerId == ownerId
    requires forall id :: id in owned ==> owned[id] == s.wishes[id]
    requires forall w :: w in rows ==> w in owned.Values
    requires forall id :: id in owned ==> owned[id] in rows
    ensures forall w :: w in rows ==> w in s.wishes.Values && w.ownerId == ownerId
    ensures forall id :: id in s.wishes && s.wishes[id].ownerId == ownerId ==> s.wishes[id] in rows
  {
    forall w | w in rows
      ensures w in s.wishes.Values && w.ownerId == ownerId
    {
      var id :| id in owned && owned[id] == w;
      assert s.wishes[id] in s.wishes.Values;
    }
  }

  /** Rendering the rows of one owner, one view per row, yields exactly the
      renderings of that owner's wishes. */
  lemma RenderedRows(s: Store, ownerId: Id, rows: seq<Wish>, r: seq<WishView>)
    requires forall w :: w in rows ==> w in s.wishes.Values && w.ownerId == ownerId
    requires forall id :: id in s.wishes && s.wishes[id].ownerId == ownerId ==> s.wishes[id] in rows
    requires |r| == |rows| && forall i :: 0 <= i < |rows| ==> r[i] == SanitizeWish(LoadWish(s, rows[i]))
    ensures forall v :: v in r ==>
      exists w :: w in s.wishes.Values && w.ownerId == ownerId && v == SanitizeWish(LoadWish(s, w))
    ensures forall id :: id in s.wishes && s.wishes[id].ownerId == ownerId ==>
      SanitizeWish(LoadWish(s, s.wishes[id])) in r
  {
    forall v | v in r
      ensures exists w :: w in s.wishes.Values && w.ownerId == ownerId && v == SanitizeWish(LoadWish(s, w))
    {
      var i :| 0 <= i < |r| && r[i] == v;
      assert rows[i] in rows;
    }
    forall id | id in s.wishes && s.wishes[id].ownerId == ownerId
      ensures SanitizeWish(LoadWish(s, s.wishes[id])) in r
    {
      var i :| 0 <= i < |rows| && rows[i] == s.wishes[id];
      assert r[i] == SanitizeWish(LoadWish(s, s.wishes[id]));
    }
  }

  /** Wish `w` belongs to a user with this username. */
  predicate OwnerNamed(s: Store, w: Wish, username: string) {
    exists id :: id in s.users && s.users[id].id == w.ownerId && s.users[id].username == username
  }

  /** `GET /users/:username/wishes`: NotFound without such a user, otherwise
      the rendered wishes of one user with that username. */
  method FindPublicWishes(s: Store, username: string) returns (r: Result<seq<WishView>>)
    ensures r == Err(NotFound) <==> forall id :: id in s.users ==> s.users[id].username != username
    ensures r.Ok? ==> forall v :: v in r.value ==>
      exists w :: w in s.wishes.Values && OwnerNamed(s, w, username) && v == SanitizeWish(LoadWish(s, w))
    ensures r.Ok? ==> exists id ::
      && id in s.users && s.users[id].username == username
      && (forall k :: k in s.wishes && s.wishes[k].ownerId == s.users[id].id ==> SanitizeWish(LoadWish(s, s.wishes[k])) in r.value)
      && |r.value| == |set k | k in s.wishes && s.wishes[k].ownerId == s.users[id].id|
  {
    if id :| id in s.users && s.users[id].username == username {
      var wishes := OwnedWishes(s, s.users[id].id);
      r := Ok(wishes);
    } else {
      r := Err(NotFound);
    }
  }

  /** The hidden offer leak through a user's wishes: every offer of an owned
      wish, hidden or not, is listed with its amount in the rendering that
      `GET /users/:username/wishes` returns to any authenticated caller. */
  lemma HiddenOfferShownOnUserWishes(s: Store, o: Offer)
    requires o in s.offers && o.itemId in s.wishes && s.wishes[o.itemId].id == o.itemId
    ensures var offers := SanitizeWish(LoadWish(s, s.wishes[o.itemId])).offers.value;
      exists i :: 0 <= i < |offers| && offers[i].id == o.id && offers[i].hidden == o.hidden
                  && offers[i].amount == Some(o.amount)
  {
    var g := LoadWish(s, s.wishes[o.itemId]);
    SameRenderingAsWishes(g);
    WishesController.EveryOfferShownOnWish(s, o);
    var offers := SanitizeWish(g).offers.value;
    var i :| 0 <= i < |offers| && offers[i].id == o.id && offers[i].amount == Some(o.amount)
             && offers[i].user == SanitizeUser(LookupUser(s, o.userId), false);
    assert offers[i].hidden == g.offers.value[i].offer.hidden;
    assert g.offers.value[i].offer == OffersOf(s.offers, s.wishes[o.itemId].id)[i];
  }
}

=== FILE: views.dfy ===
/** What the controllers see and what they return.

    A repository lookup with `relations: [...]` yields an object graph: a row
    with some of its relations attached. Those graphs are built here from the
    store (`Load*`). The controllers turn a graph into a response body; the
    response types below have no password field at all, so no rendering can
    leak a password, and a user's e-mail is present only when the rendering
    chose to expose it.
 */
module Views {
  import opened Results
  import opened Entities
  import opened Stores

  /** An identifier as a JavaScript value. Comparison with `===`/`!==` is
      datatype equality: `undefined` and `null` are different values. */
  datatype JsId = Num(n: int) | Null | Undefined

  /** The viewer id the controllers pass on: `req.user?.id`. */
  function ViewerOf(user: Option<Principal>): (r: JsId)
    ensures r == Undefined <==> user.None?
    ensures user.Some? ==> r == Num(user.value.id)
  {
    if user.Some? then Num(user.value.id) else Undefined
  }

  /** `x?.id ?? null` for a loaded user relation. */
  function IdOrNull(u: Option<User>): (r: JsId)
    ensures r != Undefined
    ensures r == Null <==> u.None?
    ensures u.Some? ==> r == Num(u.value.id)
  {
    if u.Some? then Num(u.value.id) else Null
  }

  // ----- Loaded object graphs -----

  /** A wish with its `owner` relation. */
  datatype ItemGraph = ItemGraph(wish: Wish, owner: Option<User>)

  /** An offer with its `user` relation and, when loaded, its `item` with the item's owner. */
  datatype OfferGraph = OfferGraph(offer: Offer, user: Option<User>, item: Option<ItemGraph>)

  /** A wish with its `owner` and, when loaded, its `offers` with each offer's user. */
  datatype WishGraph = WishGraph(wish: Wish, owner: Option<User>, offers: Option<seq<OfferGraph>>)

  /** A wishlist with its `owner` and, when loaded, its `items` with each item's owner. */
  datatype WishlistGraph = WishlistGraph(list: Wishlist, owner: Option<User>, items: Option<seq<ItemGraph>>)

  // ----- Response bodies -----

  datatype UserView = UserView(id: Id, username: string, profile: string, email: Option<string>)

  datatype WishView = WishView(
    id: Id,
    name: string,
    link: string,
    image: string,
    price: int,
    raised: int,
    description: string,
    copied: nat,
    createdAt: nat,
    owner: Option<UserView>,
    offers: Option<seq<OfferView>>)   // None: the key is absent from the body

  datatype OfferView = OfferView(
    id: Id,
    hidden: bool,
    amount: Option<int>,               // None: rendered as null
    user: Option<UserView>,
    item: Option<WishView>)

  datatype WishlistView = WishlistView(
    id: Id,
    name: string,
    description: string,
    image: string,
    owner: Option<UserView>,
    items: seq<WishView>)

  // ----- Redaction shared by every controller -----

  /** `sanitizeUser(user, { exposeEmail })`: drops the password always and the
      e-mail unless `exposeEmail`; an absent user stays absent. The offers,
      wishes and wishlists controllers carry copies of this function without
      the option, which behave as `exposeEmail == false`. */
  function SanitizeUser(u: Option<User>, exposeEmail: bool): (r: Option<UserView>)
    ensures r.Some? <==> u.Some?
    ensures r.Some? ==>
      && r.value.id == u.value.id
      && r.value.username == u.value.username
      && r.value.profile == u.value.profile
    ensures r.Some? ==> (r.value.email.Some? <==> exposeEmail)
    ensures r.Some? && exposeEmail ==> r.value.email == Some(u.value.email)
  {
    match u
    case None => None
    case Some(user) =>
      Some(UserView(user.id, user.username, user.profile, if exposeEmail then Some(user.email) else None))
  }

  /** The part of every `sanitizeWish`: the wish's own columns with `price`
      and `raised` as numbers and the owner without password or e-mail;
      `offers` is whatever the controller makes of them. */
  function RenderWish(w: Wish, owner: Option<User>, offers: Option<seq<OfferView>>): (r: WishView)
    ensures r.id == w.id && r.name == w.name && r.link == w.link && r.image == w.image
    ensures r.price == w.price && r.raised == w.raised
    ensures r.description == w.description && r.copied == w.copied && r.createdAt == w.createdAt
    ensures r.owner == SanitizeUser(owner, false)
    ensures r.owner.Some? ==> r.owner.value.email.None?
    ensures r.offers == offers
  {
    WishView(w.id, w.name, w.link, w.image, w.price, w.raised, w.description, w.copied, w.createdAt,
             SanitizeUser(owner, false), offers)
  }

  // ----- Loading graphs from the store -----

  /** A wish with `relations: ['owner']`. */
  function LoadItem(s: Store, w: Wish): ItemGraph {
    ItemGraph(w, LookupUser(s, w.ownerId))
  }

  /** An offer with `relations: ['user', 'item', 'item.owner']`. */
  function LoadOffer(s: Store, o: Offer): OfferGraph {
    OfferGraph(o, LookupUser(s, o.userId),
               if o.itemId in s.wishes then Some(LoadItem(s, s.wishes[o.itemId])) else None)
  }

  /** A wish with `relations: ['owner', 'offers', 'offers.user']`. */
  function LoadWish(s: Store, w: Wish): (g: WishGraph)
    ensures g.offers.Some? && |g.offers.value| == |OffersOf(s.offers, w.id)|
    ensures forall i :: 0 <= i < |g.offers.value| ==>
      g.offers.value[i] == OfferGraph(OffersOf(s.offers, w.id)[i], LookupUser(s, OffersOf(s.offers, w.id)[i].userId), None)
  {
    var offers := OffersOf(s.offers, w.id);
    WishGraph(w, LookupUser(s, w.ownerId),
              Some(seq(|offers|, i requires 0 <= i < |offers| => OfferGraph(offers[i], LookupUser(s, offers[i].userId), None))))
  }

  /** The stored wishes among `ids`, each with its owner, in list order:
      an id without a stored wish contributes nothing. */
  function LoadItems(s: Store, ids: seq<Id>): (r: seq<ItemGraph>)
    ensures |r| <= |ids|
    ensures forall k :: k in ids && k in s.wishes ==> LoadItem(s, s.wishes[k]) in r
    ensures forall g :: g in r ==> exists k :: k in ids && k in s.wishes && g == LoadItem(s, s.wishes[k])
  {
    if |ids| == 0 then []
    else
      var front := LoadItems(s, ids[..|ids| - 1]);
      var last := ids[|ids| - 1];
      if last in s.wishes then front + [LoadItem(s, s.wishes[last])] else front
  }

  /** A wishlist with `relations: ['owner', 'items', 'items.owner']`. */
  function LoadWishlist(s: Store, l: Wishlist): WishlistGraph {
    WishlistGraph(l, LookupUser(s, l.ownerId), Some(LoadItems(s, l.items)))
  }
}

=== FILE: wishes_controller.dfy ===
/** `WishesController`: renders wishes with their offers.

    Its offer renderer does not look at `hidden`: every offer of a wish is
    shown with its amount and contributor to anyone who can load the wish.
    `HiddenOfferShownOnWish` states the consequence next to the redaction of
    `OffersController`.
 */
module WishesController {
  import opened Results
  import opened Entities
  import opened Stores
  import opened Views
  import OffersController

  /** `sanitizeOffer(offer)`: the amount as a number and the contributor
      without password or e-mail, whatever `hidden` says. The queries of this
      controller load an offer's `user` only, never its `item`. */
  function SanitizeOffer(g: OfferGraph): (r: OfferView)
    ensures r.id == g.offer.id && r.hidden == g.offer.hidden
    ensures r.amount == Some(g.offer.amount)
    ensures r.user == SanitizeUser(g.user, false)
    ensures r.user.Some? ==> r.user.value.email.None?
    ensures r.item.None?
  {
    OfferView(g.offer.id, g.offer.hidden, Some(g.offer.amount), SanitizeUser(g.user, false), None)
  }

  /** `sanitizeWish(wish)`: numeric money fields, a public owner and every
      loaded offer rendered; offers that were not loaded become `[]`. */
  function SanitizeWish(g: WishGraph): (r: WishView)
    ensures r.id == g.wish.id && r.price == g.wish.price && r.raised == g.wish.raised
    ensures r.owner == SanitizeUser(g.owner, false)
    ensures r.offers.Some?
    ensures g.offers.None? ==> r.offers.value == []
    ensures g.offers.Some? ==>
      && |r.offers.value| == |g.offers.value|
      && forall i :: 0 <= i < |g.offers.value| ==> r.offers.value[i] == SanitizeOffer(g.offers.value[i])
  {
    var offers := if g.offers.Some? then g.offers.value else [];
    RenderWish(g.wish, g.owner, Some(seq(|offers|, i requires 0 <= i < |offers| => SanitizeOffer(offers[i]))))
  }

  /** `sanitizeWishes(wishes)`: pointwise, in order. */
  function SanitizeWishes(gs: seq<WishGraph>): (r: seq<WishView>)
    ensures |r| == |gs|
    ensures forall i :: 0 <= i < |gs| ==> r[i] == SanitizeWish(gs[i])
  {
    seq(|gs|, i requires 0 <= i < |gs| => SanitizeWish(gs[i]))
  }

  /** `GET /wishes/:id`: the wish with its owner and its offers' contributors. */
  function FindOne(s: Store, id: Id): (r: Result<WishView>)
    ensures r == Err(NotFound) <==> id !in s.wishes
    ensures r.Ok? ==> r.value.price == s.wishes[id].price && r.value.raised == s.wishes[id].raised
    ensures r.Ok? ==> r.value.offers.Some? && |r.value.offers.value| == |OffersOf(s.offers, s.wishes[id].id)|
  {
    if id !in s.wishes then Err(NotFound)
    else Ok(SanitizeWish(LoadWish(s, s.wishes[id])))
  }

  /** Every offer of a wish appears in the wish's rendering with its amount
      and contributor, hidden or not. */
  lemma {:induction false} EveryOfferShownOnWish(s: Store, o: Offer)
    requires o in s.offers && o.itemId in s.wishes && s.wishes[o.itemId].id == o.itemId
    ensures var offers := FindOne(s, o.itemId).value.offers.value;
      exists i :: 0 <= i < |offers| && offers[i].id == o.id && offers[i].amount == Some(o.amount)
                  && offers[i].user == SanitizeUser(LookupUser(s, o.userId), false)
  {
    var mine := OffersOf(s.offers, o.itemId);
    assert o in mine;
    var i :| 0 <= i < |mine| && mine[i] == o;
    var offers := FindOne(s, o.itemId).value.offers.value;
    assert offers[i] == SanitizeOffer(LoadWish(s, s.wishes[o.itemId]).offers.value[i]);
  }

  /** The hidden offer leak: a viewer who is neither the contributor nor the
      owner gets the amount and contributor of a hidden offer withheld from
      `GET /offers`, yet reads both from `GET /wishes/:id` of its wish. */
  lemma HiddenOfferShownOnWish(s: Store, k: nat, viewer: Id)
    requires Valid(s) && k < |s.offers|
    requires s.offers[k].hidden
    requires s.offers[k].userId in s.users && s.offers[k].itemId in s.wishes
    requires s.wishes[s.offers[k].itemId].ownerId in s.users
    requires viewer != s.offers[k].userId && viewer != s.wishes[s.offers[k].itemId].ownerId
    ensures OffersController.FindAll(s, Num(viewer))[k].amount.None?
    ensures OffersController.FindAll(s, Num(viewer))[k].user.None?
    ensures var offers := FindOne(s, s.offers[k].itemId).value.offers.value;
      exists i :: 0 <= i < |offers| && offers[i].id == s.offers[k].id
                  && offers[i].amount == Some(s.offers[k].amount) && offers[i].user.Some?
  {
    var o := s.offers[k];
    OffersController.StoredOfferVisibility(s, o, viewer);
    assert OffersController.FindAll(s, Num(viewer))[k]
        == OffersController.SanitizeOffer(LoadOffer(s, o), Num(viewer));
    EveryOfferShownOnWish(s, o);
  }
}

=== FILE: wishes_service.dfy ===
/** The wish lifecycle: `WishesService`.

    Creation, update and removal by the owner, the "copy" operation that
    duplicates a wish for another user, and the two bounded listings. Update
    and removal check existence first and ownership second; an update may not
    change the price of a wish that already has offers.
 */
module WishesService {
  import opened Results
  import opened Entities
  import opened Stores

  /** The listings' default page sizes. */
  const LastLimit: nat := 40
  const TopLimit: nat := 20

  /** The body of `POST /wishes`. */
  datatype CreateWishDto = CreateWishDto(name: string, link: string, image: string, price: int, description: string)

  /** The body of `PATCH /wishes/:id`: every field optional, and each may
      also be sent as `null`. It has no `raised` or `copied` field, so a
      client cannot set either. */
  datatype UpdateWishDto = UpdateWishDto(
    name: Field<string>,
    link: Field<string>,
    image: Field<string>,
    price: Field<int>,
    description: Field<string>)

  /** A write that produced or changed one wish. */
  datatype Written = Written(store: Store, wish: Wish)

  /** The validation constraints of `CreateWishDto`; the upper price bound is
      that of the `decimal(10, 2)` column. */
  predicate WellFormedCreate(dto: CreateWishDto) {
    && 1 <= |dto.name| <= WishNameMax
    && 1 <= |dto.description| <= WishDescriptionMax
    && MinPrice <= dto.price && IsMoney(dto.price)
  }

  /** The validation constraints of `UpdateWishDto`, on the fields given a
      value; `@IsOptional()` skips a missing or `null` field. */
  predicate WellFormedUpdate(dto: UpdateWishDto) {
    && (dto.name.Given? ==> 1 <= |dto.name.value| <= WishNameMax)
    && (dto.description.Given? ==> 1 <= |dto.description.value| <= WishDescriptionMax)
    && (dto.price.Given? ==> MinPrice <= dto.price.value && IsMoney(dto.price.value))
  }

  /** `Number(price)` of a sent price field: `Number(null)` is 0. */
  function PriceNumber(price: Field<int>): int
    requires price.Sent()
  {
    if price.Given? then price.value else 0
  }

  /** Some field of the update is an explicit `null`, which the update would
      write into a NOT NULL column. */
  predicate HasNull(dto: UpdateWishDto) {
    dto.name.JsonNull? || dto.link.JsonNull? || dto.image.JsonNull? || dto.price.JsonNull? || dto.description.JsonNull?
  }

  /** Stores a new wish owned by `ownerId`. */
  function CreateForOwner(s: Store, dto: CreateWishDto, ownerId: Id): (r: Written)
    requires WellFormedCreate(dto)
    ensures r.store == InsertWish(s, r.wish) && r.wish.id == s.nextId
    ensures r.wish.ownerId == ownerId && r.wish.createdAt == s.clock
    ensures r.wish.raised == 0 && r.wish.copied == 0
    ensures (r.wish.name, r.wish.link, r.wish.image, r.wish.price, r.wish.description)
         == (dto.name, dto.link, dto.image, dto.price, dto.description)
    ensures WishShape(r.wish)
  {
    var w := FreshWish(s.nextId, dto.name, dto.link, dto.image, dto.price, dto.description, ownerId, s.clock);
    Written(InsertWish(s, w), w)
  }

  /** The update sends a price, possibly `null`, that differs numerically
      from the price of a wish that already has offers. */
  predicate PriceChangeBlocked(s: Store, id: Id, dto: UpdateWishDto)
    requires id in s.wishes
  {
    dto.price.Sent() && HasOffers(s.offers, id) && PriceNumber(dto.price) != s.wishes[id].price
  }

  /** The wish with the given fields of `dto` written over it. */
  function Patch(w: Wish, dto: UpdateWishDto): Wish {
    w.(name := dto.name.GivenOr(w.name),
       link := dto.link.GivenOr(w.link),
       image := dto.image.GivenOr(w.image),
       price := dto.price.GivenOr(w.price),
       description := dto.description.GivenOr(w.description))
  }

  /** `PATCH /wishes/:id` by user `userId`. */
  function UpdateWithChecks(s: Store, id: Id, dto: UpdateWishDto, userId: Id): (r: Result<Written>)
    requires WellFormedUpdate(dto)
    ensures r == Err(NotFound) <==> id !in s.wishes
    ensures r == Err(Forbidden) <==> id in s.wishes && s.wishes[id].ownerId != userId
    ensures r == Err(BadRequest(PriceLocked))
        <==> id in s.wishes && s.wishes[id].ownerId == userId && PriceChangeBlocked(s, id, dto)
    // A `null` that passes the checks reaches the write, which the database refuses.
    ensures r == Err(StorageFailure)
        <==> id in s.wishes && s.wishes[id].ownerId == userId && !PriceChangeBlocked(s, id, dto) && HasNull(dto)
    ensures r.Ok? <==>
      id in s.wishes && s.wishes[id].ownerId == userId && !PriceChangeBlocked(s, id, dto) && !HasNull(dto)
    // Only this wish's row is written ...
    ensures r.Ok? ==> r.value.store == s.(wishes := s.wishes[id := r.value.wish])
    // ... each given field takes the given value, every other field keeps its own.
    ensures r.Ok? ==>
      var (w0, w) := (s.wishes[id], r.value.wish);
      && (dto.name.Given? ==> w.name == dto.name.value) && (dto.name.Absent? ==> w.name == w0.name)
      && (dto.link.Given? ==> w.link == dto.link.value) && (dto.link.Absent? ==> w.link == w0.link)
      && (dto.image.Given? ==> w.image == dto.image.value) && (dto.image.Absent? ==> w.image == w0.image)
      && (dto.price.Given? ==> w.price == dto.price.value) && (dto.price.Absent? ==> w.price == w0.price)
      && (dto.description.Given? ==> w.description == dto.description.value)
      && (dto.description.Absent? ==> w.description == w0.description)
      && w.id == w0.id && w.ownerId == w0.ownerId && w.createdAt == w0.createdAt
      && w.raised == w0.raised && w.copied == w0.copied
  {
    if id !in s.wishes then Err(NotFound)
    else if s.wishes[id].ownerId != userId then Err(Forbidden)
    else if PriceChangeBlocked(s, id, dto) then Err(BadRequest(PriceLocked))
    else if HasNull(dto) then Err(StorageFailure)
    else
      var w := Patch(s.wishes[id], dto);
      Ok(Written(s.(wishes := s.wishes[id := w]), w))
  }

  /** The ledger guard and the price lock together keep `raised <= price`:
      a price can only move while the wish has no offers, when it has raised
      nothing, and every price is at least one cent. */
  lemma UpdateKeepsValid(s: Store, id: Id, dto: UpdateWishDto, userId: Id)
    requires Valid(s) && WellFormedUpdate(dto)
    requires UpdateWithChecks(s, id, dto, userId).Ok?
    ensures Valid(UpdateWithChecks(s, id, dto, userId).value.store)
  {
    var w := Patch(s.wishes[id], dto);
    if dto.price.Given? && dto.price.value != s.wishes[id].price {
      UnfundedWishRaisedNothing(s, id);
    }
    assert WishShape(w);
    ReplaceWishKeepsValid(s, w);
  }

  /** A `null` price counts as the number 0, so on a wish that already has
      offers (and therefore a price of at least one cent) it always trips
      the price lock; on any other wish of the caller it reaches the write
      and is refused there. Either way nothing is written. */
  lemma NullPriceNeverWritten(s: Store, id: Id, dto: UpdateWishDto, userId: Id)
    requires WellFormedUpdate(dto) && WishesFunded(s)
    requires dto.price == JsonNull && id in s.wishes && s.wishes[id].ownerId == userId
    ensures HasOffers(s.offers, id) ==> UpdateWithChecks(s, id, dto, userId) == Err(BadRequest(PriceLocked))
    ensures !HasOffers(s.offers, id) ==> UpdateWithChecks(s, id, dto, userId) == Err(StorageFailure)
  {
    assert WishShape(s.wishes[id]);
  }

  /** `DELETE /wishes/:id` by user `userId`: the removed row is returned. */
  function RemoveWithChecks(s: Store, id: Id, userId: Id): (r: Result<Written>)
    ensures r == Err(NotFound) <==> id !in s.wishes
    ensures r == Err(Forbidden) <==> id in s.wishes && s.wishes[id].ownerId != userId
    ensures r.Ok? <==> id in s.wishes && s.wishes[id].ownerId == userId
    ensures r.Ok? ==> r.value.wish == s.wishes[id]
    ensures r.Ok? ==>
      && id !in r.value.store.wishes
      && r.value.store.wishes.Keys == s.wishes.Keys - {id}
      && (forall k :: k in r.value.store.wishes ==> r.value.store.wishes[k] == s.wishes[k])
      && r.value.store == s.(wishes := r.value.store.wishes)
  {
    if id !in s.wishes then Err(NotFound)
    else if s.wishes[id].ownerId != userId then Err(Forbidden)
    else Ok(Written(s.(wishes := s.wishes - {id}), s.wishes[id]))
  }

  /** Removing a wish keeps the store valid. */
  lemma RemoveKeepsValid(s: Store, id: Id, userId: Id)
    requires Valid(s) && RemoveWithChecks(s, id, userId).Ok?
    ensures Valid(RemoveWithChecks(s, id, userId).value.store)
  {
    var s' := RemoveWithChecks(s, id, userId).value.store;
    assert WishesFunded(s');
  }

  /** `POST /wishes/:id/copy` by user `ownerId`: the source's `copied`
      counter is bumped and a new wish with the source's descriptive fields
      is created for `ownerId`. There is no ownership check. */
  function CopyWish(s: Store, id: Id, ownerId: Id): (r: Result<Written>)
    ensures r == Err(NotFound) <==> id !in s.wishes
    ensures r.Ok? <==> id in s.wishes
    // Two writes: the source's counter goes up by one, then the copy is inserted
    // under the next generated id, owned by the requester, unfunded and with
    // the source's descriptive fields.
    ensures r.Ok? ==>
      var (src, c) := (s.wishes[id], r.value.wish);
      && r.value.store.wishes == s.wishes[id := src.(copied := src.copied + 1)][c.id := c]
      && r.value.store.offers == s.offers
      && r.value.store.users == s.users
      && r.value.store.wishlists == s.wishlists
      && c.id == s.nextId
      && c.ownerId == ownerId && c.raised == 0 && c.copied == 0
      && (c.name, c.link, c.image, c.price, c.description)
         == (src.name, src.link, src.image, src.price, src.description)
  {
    if id !in s.wishes then Err(NotFound)
    else
      var src := s.wishes[id];
      var bumped := s.(wishes := s.wishes[id := src.(copied := src.copied + 1)]);
      var copy := FreshWish(bumped.nextId, src.name, src.link, src.image, src.price, src.description,
                            ownerId, bumped.clock);
      Ok(Written(InsertWish(bumped, copy), copy))
  }

  /** In a valid store the copy gets an id of its own: afterwards the source
      has been copied exactly once more and is otherwise untouched, the copy
      has no offers, and the store is still valid. */
  lemma CopyKeepsValid(s: Store, id: Id, ownerId: Id)
    requires Valid(s) && id in s.wishes
    ensures CopyWish(s, id, ownerId).Ok?
    ensures var r := CopyWish(s, id, ownerId).value;
      && r.wish.id != id && r.wish.id !in s.wishes
      && r.store.wishes[id] == s.wishes[id].(copied := s.wishes[id].copied + 1)
      && OffersOf(r.store.offers, r.wish.id) == []
      && Valid(r.store)
  {
    var src := s.wishes[id];
    var bumped := s.(wishes := s.wishes[id := src.(copied := src.copied + 1)]);
    ReplaceWishKeepsValid(s, src.(copied := src.copied + 1));
    InsertWishKeepsValid(bumped, CopyWish(s, id, ownerId).value.wish);
    UnreferencedHasNoOffers(s.offers, s.nextId);
  }

  /** The column a listing is ordered by, descending. */
  datatype Order = ByCreatedAt | ByCopied

  function Key(w: Wish, order: Order): int {
    match order
    case ByCreatedAt => w.createdAt
    case ByCopied => w.copied
  }

  /** `ws` is ordered by `order`, largest first. */
  predicate SortedDesc(ws: seq<Wish>, order: Order) {
    forall i, j :: 0 <= i < j < |ws| ==> Key(ws[j], order) <= Key(ws[i], order)
  }

  function Min(a: nat, b: nat): nat {
    if a < b then a else b
  }

  /** Every row sits under its own primary key. */
  predicate Keyed(m: map<Id, Wish>) {
    forall id :: id in m ==> m[id].id == id
  }

  /** No two rows of `ws` share a primary key. */
  predicate DistinctIds(ws: seq<Wish>) {
    forall i, j :: 0 <= i < j < |ws| ==> ws[i].id != ws[j].id
  }

  /** The rows of the wishes table, in no particular order: one per key, so
      a keyed table yields no row twice. */
  method Rows(m: map<Id, Wish>) returns (rows: seq<Wish>)
    ensures |rows| == |m|
    ensures forall w :: w in rows ==> w in m.Values
    ensures forall id :: id in m ==> m[id] in rows
    ensures Keyed(m) ==> DistinctIds(rows)
  {
    rows := [];
    ghost var keys: seq<Id> := [];
    var pending := m.Keys;
    while pending != {}
      invariant pending <= m.Keys
      invariant |rows| + |pending| == |m|
      invariant |keys| == |rows|
      invariant forall i :: 0 <= i < |keys| ==> keys[i] in m && keys[i] !in pending && rows[i] == m[keys[i]]
      invariant forall i, j :: 0 <= i < j < |keys| ==> keys[i] != keys[j]
      invariant forall w :: w in rows ==> w in m.Values
      invariant forall id :: id in m && id !in pending ==> m[id] in rows
      decreases |pending|
    {
      var id :| id in pending;
      rows := rows + [m[id]];
      keys := keys + [id];
      pending := pending - {id};
    }
  }

  /** The position of a largest row of `rows` under `order` (the first one on ties). */
  method IndexOfMax(rows: seq<Wish>, order: Order) returns (m: nat)
    requires |rows| > 0
    ensures m < |rows|
    ensures forall j :: 0 <= j < |rows| ==> Key(rows[j], order) <= Key(rows[m], order)
  {
    m := 0;
    var i := 1;
    while i < |rows|
      invariant 1 <= i <= |rows| && m < i
      invariant forall j :: 0 <= j < i ==> Key(rows[j], order) <= Key(rows[m], order)
    {
      if Key(rows[i], order) > Key(rows[m], order) {
        m := i;
      }
      i := i + 1;
    }
  }

  /** No row of `rest` is larger than a row of `top`. */
  predicate Dominates(top: seq<Wish>, rest: seq<Wish>, order: Order) {
    forall i, j :: 0 <= i < |top| && 0 <= j < |rest| ==> Key(rest[j], order) <= Key(top[i], order)
  }

  /** Moving a largest row of `rest` to the end of `top` keeps `top` sorted
      and dominating, and loses no row. */
  lemma SelectStep(top: seq<Wish>, rest: seq<Wish>, m: nat, order: Order)
    requires m < |rest|
    requires SortedDesc(top, order) && Dominates(top, rest, order)
    requires forall j :: 0 <= j < |rest| ==> Key(rest[j], order) <= Key(rest[m], order)
    ensures SortedDesc(top + [rest[m]], order)
    ensures Dominates(top + [rest[m]], rest[..m] + rest[m + 1..], order)
    ensures multiset(top + [rest[m]]) + multiset(rest[..m] + rest[m + 1..]) == multiset(top) + multiset(rest)
  {
    var rest' := rest[..m] + rest[m + 1..];
    assert rest == rest[..m] + [rest[m]] + rest[m + 1..];
    forall j | 0 <= j < |rest'|
      ensures rest'[j] == rest[if j < m then j else j + 1]
    {
    }
  }

  /** No row of `top` shares a key with a row of `rest`. */
  predicate IdsApart(top: seq<Wish>, rest: seq<Wish>) {
    forall i, j :: 0 <= i < |top| && 0 <= j < |rest| ==> top[i].id != rest[j].id
  }

  /** Moving row `m` of `rest` to the end of `top` keeps the keys of both
      distinct and apart. */
  lemma SelectKeepsDistinct(top: seq<Wish>, rest: seq<Wish>, m: nat)
    requires m < |rest|
    requires DistinctIds(top) && DistinctIds(rest) && IdsApart(top, rest)
    ensures DistinctIds(top + [rest[m]]) && DistinctIds(rest[..m] + rest[m + 1..])
    ensures IdsApart(top + [rest[m]], rest[..m] + rest[m + 1..])
  {
    var rest' := rest[..m] + rest[m + 1..];
    forall j | 0 <= j < |rest'|
      ensures rest'[j] == rest[if j < m then j else j + 1]
    {
    }
  }

  /** `ORDER BY <order> DESC LIMIT limit`: the `limit` largest rows, largest
      first, none taken twice. Every row left out is no larger than any row
      taken. */
  method TopBy(rows: seq<Wish>, order: Order, limit: nat) returns (top: seq<Wish>)
    ensures |top| == Min(limit, |rows|)
    ensures multiset(top) <= multiset(rows)
    ensures DistinctIds(rows) ==> DistinctIds(top)
    ensures SortedDesc(top, order)
    ensures forall w, i :: w in multiset(rows) - multiset(top) && 0 <= i < |top|
                       ==> Key(w, order) <= Key(top[i], order)
  {
    top := [];
    var rest := rows;
    while |top| < limit && |rest| > 0
      invariant multiset(top) + multiset(rest) == multiset(rows)
      invariant |top| + |rest| == |rows| && |top| <= limit
      invariant SortedDesc(top, order) && Dominates(top, rest, order)
      invariant DistinctIds(rows) ==> DistinctIds(top) && DistinctIds(rest) && IdsApart(top, rest)
      decreases |rest|
    {
      var m := IndexOfMax(rest, order);
      SelectStep(top, rest, m, order);
      if DistinctIds(rows) {
        SelectKeepsDistinct(top, rest, m);
      }
      top := top + [rest[m]];
      rest := rest[..m] + rest[m + 1..];
    }
    assert multiset(rows) - multiset(top) == multiset(rest);
    forall w, i | w in multiset(rest) && 0 <= i < |top|
      ensures Key(w, order) <= Key(top[i], order)
    {
      assert w in rest;
    }
  }

  /** `findLast(limit)`: the `limit` most recently created wishes, newest first. */
  method FindLast(s: Store, limit: nat := LastLimit) returns (r: seq<Wish>)
    ensures |r| == Min(limit, |s.wishes|)
    ensures Keyed(s.wishes) ==> DistinctIds(r)
    ensures forall w :: w in r ==> w in s.wishes.Values
    ensures SortedDesc(r, ByCreatedAt)
    ensures forall id, i :: id in s.wishes && s.wishes[id] !in r && 0 <= i < |r|
                        ==> s.wishes[id].createdAt <= r[i].createdAt
  {
    r := Listing(s, ByCreatedAt, limit);
  }

  /** `findTop(limit)`: the `limit` most copied wishes, most copied first. */
  method FindTop(s: Store, limit: nat := TopLimit) returns (r: seq<Wish>)
    ensures |r| == Min(limit, |s.wishes|)
    ensures Keyed(s.wishes) ==> DistinctIds(r)
    ensures forall w :: w in r ==> w in s.wishes.Values
    ensures SortedDesc(r, ByCopied)
    ensures forall id, i :: id in s.wishes && s.wishes[id] !in r && 0 <= i < |r|
                        ==> s.wishes[id].copied <= r[i].copied
  {
    r := Listing(s, ByCopied, limit);
  }

  /** The stored wishes ordered by `order`, cut to `limit`. */
  method Listing(s: Store, order: Order, limit: nat) returns (r: seq<Wish>)
    ensures |r| == Min(limit, |s.wishes|)
    ensures Keyed(s.wishes) ==> DistinctIds(r)
    ensures forall w :: w in r ==> w in s.wishes.Values
    ensures SortedDesc(r, order)
    ensures forall id, i :: id in s.wishes && s.wishes[id] !in r && 0 <= i < |r|
                        ==> Key(s.wishes[id], order) <= Key(r[i], order)
  {
    var rows := Rows(s.wishes);
    r := TopBy(rows, order, limit);
    forall w | w in r
      ensures w in s.wishes.Values
    {
      assert w in multiset(r);
    }
    forall id, i | id in s.wishes && s.wishes[id] !in r && 0 <= i < |r|
      ensures Key(s.wishes[id], order) <= Key(r[i], order)
    {
      assert s.wishes[id] in multiset(rows) - multiset(r);
    }
  }
}

=== FILE: wishlists_controller.dfy ===
/** `WishlistsController`: renders wishlists with their member wishes.

    A member wish is rendered without its offers at all, so nothing about
    contributions, hidden or not, is reachable through a wishlist.
 */
module WishlistsController {
  import opened Results
  import opened Entities
  import opened Stores
  import opened Views

  /** `sanitizeWish(wish)`: numeric money fields and a public owner; the
      `offers` key is dropped from the body. */
  function SanitizeWish(g: ItemGraph): (r: WishView)
    ensures r.id == g.wish.id && r.price == g.wish.price && r.raised == g.wish.raised
    ensures r.owner == SanitizeUser(g.owner, false)
    ensures r.owner.Some? ==> r.owner.value.email.None?
    ensures r.offers.None?
  {
    RenderWish(g.wish, g.owner, None)
  }

  /** `sanitizeWishlist(wishlist)`: an absent wishlist passes through; the
      owner is public and every loaded item is rendered, missing items
      becoming `[]`. */
  function SanitizeWishlist(g: Option<WishlistGraph>): (r: Option<WishlistView>)
    ensures r.Some? <==> g.Some?
    ensures r.Some? ==>
      && r.value.id == g.value.list.id
      && r.value.name == g.value.list.name
      && r.value.description == g.value.list.description
      && r.value.image == g.value.list.image
      && r.value.owner == SanitizeUser(g.value.owner, false)
    ensures r.Some? && g.value.items.None? ==> r.value.items == []
    ensures r.Some? && g.value.items.Some? ==>
      && |r.value.items| == |g.value.items.value|
      && forall i :: 0 <= i < |r.value.items| ==> r.value.items[i] == SanitizeWish(g.value.items.value[i])
  {
    match g
    case None => None
    case Some(l) =>
      var items := if l.items.Some? then l.items.value else [];
      Some(WishlistView(l.list.id, l.list.name, l.list.description, l.list.image,
                        SanitizeUser(l.owner, false),
                        seq(|items|, i requires 0 <= i < |items| => SanitizeWish(items[i]))))
  }

  /** `sanitizeWishlists(wishlists)`: pointwise, in order. */
  function SanitizeWishlists(gs: seq<WishlistGraph>): (r: seq<WishlistView>)
    ensures |r| == |gs|
    ensures forall i :: 0 <= i < |gs| ==> Some(r[i]) == SanitizeWishlist(Some(gs[i]))
  {
    seq(|gs|, i requires 0 <= i < |gs| => SanitizeWishlist(Some(gs[i])).value)
  }

  /** `GET /wishlistlists/:id`. */
  function FindOne(s: Store, id: Id): (r: Result<WishlistView>)
    ensures r == Err(NotFound) <==> id !in s.wishlists
    ensures r.Ok? ==> r.value.name == s.wishlists[id].name && |r.value.items| <= |s.wishlists[id].items|
    ensures r.Ok? ==> forall i :: 0 <= i < |r.value.items| ==> r.value.items[i].offers.None?
  {
    if id !in s.wishlists then Err(NotFound)
    else Ok(SanitizeWishlist(Some(LoadWishlist(s, s.wishlists[id]))).value)
  }

  /** The items of a rendered wishlist are exactly its stored member wishes:
      each rendered item is a stored wish the list names, with its stored
      price and progress, and each member that still exists is rendered. */
  lemma RenderedItemsAreStoredMembers(s: Store, id: Id)
    requires WishesFunded(s) && id in s.wishlists
    ensures var items := FindOne(s, id).value.items;
      && (forall i :: 0 <= i < |items| ==>
            && items[i].id in s.wishlists[id].items && items[i].id in s.wishes
            && items[i].price == s.wishes[items[i].id].price
            && items[i].raised == s.wishes[items[i].id].raised)
      && (forall k :: k in s.wishlists[id].items && k in s.wishes ==>
            exists i :: 0 <= i < |items| && items[i].id == k)
  {
    var l := s.wishlists[id];
    var loaded := LoadItems(s, l.items);
    var items := FindOne(s, id).value.items;
    forall i | 0 <= i < |items|
      ensures items[i].id in l.items && items[i].id in s.wishes
      ensures items[i].price == s.wishes[items[i].id].price && items[i].raised == s.wishes[items[i].id].raised
    {
      assert loaded[i] in loaded;
      var k :| k in l.items && k in s.wishes && loaded[i] == LoadItem(s, s.wishes[k]);
      assert items[i] == SanitizeWish(loaded[i]);
    }
    forall k | k in l.items && k in s.wishes
      ensures exists i :: 0 <= i < |items| && items[i].id == k
    {
      var i :| 0 <= i < |loaded| && loaded[i] == LoadItem(s, s.wishes[k]);
      assert items[i] == SanitizeWish(loaded[i]);
    }
  }
}

=== FILE: wishlists_service.dfy ===
/** Wishlist aggregation: `WishlistsService`.

    A wishlist references existing wishes by id. The ids a client sends are
    resolved against the wishes table when the list is written: ids of
    missing wishes are dropped without an error. On update a supplied id list
    replaces the membership instead of being merged into it.
 */
module WishlistsService {
  import opened Results
  import opened Entities
  import opened Stores

  /** The body of `POST /wishlistlists`. */
  datatype CreateWishlistDto = CreateWishlistDto(
    name: string,
    description: Option<string>,
    image: string,
    itemsId: seq<int>)

  /** The body of `PATCH /wishlistlists/:id`: every field optional. The id
      list may also be sent as `null`. */
  datatype UpdateWishlistDto = UpdateWishlistDto(
    name: Option<string>,
    description: Option<string>,
    image: Option<string>,
    itemsId: Field<seq<int>>)

  /** A write that produced, changed or removed one wishlist. */
  datatype ListWritten = ListWritten(store: Store, wishlist: Wishlist)

  predicate Distinct(xs: seq<Id>) {
    forall i, j :: 0 <= i < j < |xs| ==> xs[i] != xs[j]
  }

  /** The validation constraints of `CreateWishlistDto`. */
  predicate WellFormedCreate(dto: CreateWishlistDto) {
    && 1 <= |dto.name| <= ListNameMax
    && (dto.description.Some? ==> |dto.description.value| <= ListDescriptionMax)
  }

  /** The validation constraints of `UpdateWishlistDto`, on the fields present. */
  predicate WellFormedUpdate(dto: UpdateWishlistDto) {
    && (dto.name.Some? ==> 1 <= |dto.name.value| <= ListNameMax)
    && (dto.description.Some? ==> |dto.description.value| <= ListDescriptionMax)
  }

  /** The ids of `ids` that name a stored wish, each once, in the order of
      their first occurrence (`WHERE id IN (...)`). */
  function Resolve(wishes: map<Id, Wish>, ids: seq<int>): (r: seq<Id>)
    ensures Distinct(r)
    ensures forall id: Id :: id in r <==> id in ids && id in wishes
  {
    if |ids| == 0 then []
    else
      var known := Resolve(wishes, ids[..|ids| - 1]);
      var last := ids[|ids| - 1];
      if last >= 0 && last as Id in wishes && last as Id !in known then known + [last as Id] else known
  }

  /** `resolveItems`: a missing, `null` or empty list yields no items
      without a lookup (`!itemsId?.length`); otherwise exactly the stored
      wishes named by the list. */
  function ResolveItems(wishes: map<Id, Wish>, itemsId: Field<seq<int>>): (r: seq<Id>)
    ensures !itemsId.Given? || |itemsId.value| == 0 ==> r == []
    ensures Distinct(r)
    ensures forall id: Id :: id in r <==> itemsId.Given? && id in itemsId.value && id in wishes
  {
    if !itemsId.Given? || |itemsId.value| == 0 then [] else Resolve(wishes, itemsId.value)
  }

  /** Stores a new wishlist owned by `ownerId` holding the resolved items. */
  function CreateForOwner(s: Store, dto: CreateWishlistDto, ownerId: Id): (r: ListWritten)
    requires WellFormedCreate(dto)
    ensures r.wishlist.id == s.nextId
    ensures r.store == s.(wishlists := s.wishlists[r.wishlist.id := r.wishlist], nextId := s.nextId + 1)
    ensures r.wishlist.ownerId == ownerId
    ensures r.wishlist.name == dto.name && r.wishlist.image == dto.image
    ensures r.wishlist.description == (if dto.description.Some? then dto.description.value else "")
    ensures Distinct(r.wishlist.items)
    ensures forall id: Id :: id in r.wishlist.items <==> id in dto.itemsId && id in s.wishes
  {
    var items := ResolveItems(s.wishes, Given(dto.itemsId));
    var list := Wishlist(s.nextId, dto.name, dto.description.GetOr(""), dto.image, ownerId, items);
    ListWritten(s.(wishlists := s.wishlists[list.id := list], nextId := s.nextId + 1), list)
  }

  /** The update carries at least one non-item field. */
  predicate HasFields(dto: UpdateWishlistDto) {
    dto.name.Some? || dto.description.Some? || dto.image.Some?
  }

  /** The wishlist with the supplied non-item fields of `dto` written over it. */
  function PatchFields(list: Wishlist, dto: UpdateWishlistDto): Wishlist {
    list.(name := dto.name.GetOr(list.name),
          description := dto.description.GetOr(list.description),
          image := dto.image.GetOr(list.image))
  }

  /** `PATCH /wishlistlists/:id` by user `ownerId`. The non-item fields are
      written first; a supplied id list is then saved together with the row
      as it was loaded before that first write. */
  function UpdateWithChecks(s: Store, id: Id, dto: UpdateWishlistDto, ownerId: Id): (r: Result<ListWritten>)
    requires WellFormedUpdate(dto)
    ensures r == Err(NotFound) <==> id !in s.wishlists
    ensures r == Err(Forbidden) <==> id in s.wishlists && s.wishlists[id].ownerId != ownerId
    ensures r.Ok? <==> id in s.wishlists && s.wishlists[id].ownerId == ownerId
    // Only this wishlist's row is written; wishes are untouched.
    ensures r.Ok? ==> r.value.store == s.(wishlists := s.wishlists[id := r.value.wishlist])
    ensures r.Ok? ==> r.value.wishlist.id == s.wishlists[id].id && r.value.wishlist.ownerId == ownerId
    // A sent id list, even an empty one, replaces the membership ...
    ensures r.Ok? && dto.itemsId.Given? ==>
      && Distinct(r.value.wishlist.items)
      && forall x: Id :: x in r.value.wishlist.items <==> x in dto.itemsId.value && x in s.wishes
    // ... and so does a `null` one, which empties it.
    ensures r.Ok? && dto.itemsId.JsonNull? ==> r.value.wishlist.items == []
    // Without an id list the membership stays and the supplied fields are written.
    ensures r.Ok? && dto.itemsId.Absent? ==>
      var (w0, w) := (s.wishlists[id], r.value.wishlist);
      && w.items == w0.items
      && (dto.name.Some? ==> w.name == dto.name.value) && (dto.name.None? ==> w.name == w0.name)
      && (dto.description.Some? ==> w.description == dto.description.value)
      && (dto.description.None? ==> w.description == w0.description)
      && (dto.image.Some? ==> w.image == dto.image.value) && (dto.image.None? ==> w.image == w0.image)
    // Without non-item fields nothing but the membership can change.
    ensures r.Ok? && !HasFields(dto) ==>
      var (w0, w) := (s.wishlists[id], r.value.wishlist);
      w.name == w0.name && w.description == w0.description && w.image == w0.image
  {
    if id !in s.wishlists then Err(NotFound)
    else
      var loaded := s.wishlists[id];
      if loaded.ownerId != ownerId then Err(Forbidden)
      else
        var patched := if HasFields(dto) then PatchFields(loaded, dto) else loaded;
        var saved := if dto.itemsId.Sent() then loaded.(items := ResolveItems(s.wishes, dto.itemsId))
                     else patched;
        Ok(ListWritten(s.(wishlists := s.wishlists[id := saved]), saved))
  }

  /** `DELETE /wishlistlists/:id` by user `ownerId`: only the wishlist row goes;
      its member wishes stay. The removed row is returned. */
  function RemoveWithChecks(s: Store, id: Id, ownerId: Id): (r: Result<ListWritten>)
    ensures r == Err(NotFound) <==> id !in s.wishlists
    ensures r == Err(Forbidden) <==> id in s.wishlists && s.wishlists[id].ownerId != ownerId
    ensures r.Ok? <==> id in s.wishlists && s.wishlists[id].ownerId == ownerId
    ensures r.Ok? ==> r.value.wishlist == s.wishlists[id]
    ensures r.Ok? ==>
      && r.value.store.wishlists.Keys == s.wishlists.Keys - {id}
      && (forall k :: k in r.value.store.wishlists ==> r.value.store.wishlists[k] == s.wishlists[k])
      && r.value.store.wishes == s.wishes
      && r.value.store == s.(wishlists := r.value.store.wishlists)
  {
    if id !in s.wishlists then Err(NotFound)
    else if s.wishlists[id].ownerId != ownerId then Err(Forbidden)
    else Ok(ListWritten(s.(wishlists := s.wishlists - {id}), s.wishlists[id]))
  }

  /** The wishlist operations keep the store valid. */
  lemma ListWritesKeepValid(s: Store, dto: CreateWishlistDto, update: UpdateWishlistDto, id: Id, ownerId: Id)
    requires Valid(s) && WellFormedCreate(dto) && WellFormedUpdate(update)
    ensures Valid(CreateForOwner(s, dto, ownerId).store)
    ensures UpdateWithChecks(s, id, update, ownerId).Ok? ==> Valid(UpdateWithChecks(s, id, update, ownerId).value.store)
    ensures RemoveWithChecks(s, id, ownerId).Ok? ==> Valid(RemoveWithChecks(s, id, ownerId).value.store)
  {
    var created := CreateForOwner(s, dto, ownerId).store;
    assert WishesFunded(created);
    assert OffersBounded(created);
  }
}
